=== FILE: README.md ===
# recipe-app-api: recipes, tags and ingredients, in Dafny

This project models the recipe API of `recipe-app-api`, a Django REST
Framework service. Each authenticated user keeps their own recipes. Each
recipe links to some of that user's tags and ingredients.

The model covers two pieces of logic:

- **Nested tag and ingredient resolution in `RecipeSerializer`.**
  - A create inserts the recipe. It then runs get-or-create, keyed by the
    requester plus the supplied fields, on each tag and each ingredient entry,
    and adds every row it gets to the recipe's links.
  - An update applies a replace-on-presence rule to each list. A list that is
    present, even empty, clears the links and rebuilds them. A list that is
    absent leaves them alone.
  - After that, only the scalar fields the payload supplies are overwritten.
- **Ownership scoping in the viewsets.**
  - Every endpoint requires an authenticated requester.
  - Every query starts from the requester's own rows, so another user's row
    answers "not found".
  - Recipes are listed newest first. Tags and ingredients are listed by
    descending name.
  - A new recipe's owner is always the requester.

The database is an in-memory store: a set of users and three tables. A table
maps row ids to rows. Ids come from a sequence and are never reused. A recipe
row holds its sets of linked tag ids and ingredient ids.

Every request is a pure function from the store to a `Reply`. A reply carries
the store after the request and either a result or an error:

- `Unauthorized`
- `NotFound`
- `Invalid(field)`
- `MultipleObjectsReturned`, raised by get-or-create when two rows match.

Modules, in dependency order:

| module | file | what it holds |
|---|---|---|
| `Outcomes` | outcomes.dfy | `Option`, `Result`, the error kinds |
| `Tables` | tables.dfy | id-keyed tables: `Filter` (newest first), `Insert`, `Delete` |
| `Resolution` | resolution.dfy | generic get-or-create and the loop that resolves a nested list into links |
| `Models` | models.dfy | the rows, the store, its integrity invariant `Valid` |
| `Ordering` | ordering.dfy | code-point name order and a sort by descending name |
| `Serializers` | serializers.dfy | `RecipeSerializer`: tag and ingredient resolution, `create`, `update` |
| `SerializerProperties` | serializer_properties.dfy | what `create` and `update` promise |
| `Views` | views.dfy | `RecipeViewSet`, `TagViewSet`, `IngredientViewSet` as request handlers |
| `ViewProperties` | view_properties.dfy | isolation between users, integrity, round trips across requests |

## Model

| member | source | states |
|---|---|---|
| Tables.Filter | app/recipe/views.py:15-16 | the ids of the rows a predicate accepts, each once, in strictly descending id order |
| Tables.Insert | app/recipe/serializers.py:53 | a new row gets an id no row has, and no other row changes |
| Tables.Delete | app/recipe/views.py:28-31 | the deleted row's id disappears, every other row stays as it was, and no id is freed for reuse |
| Resolution.GetOrCreate | app/recipe/serializers.py:33-36 | it fails with `MultipleObjectsReturned` exactly when two rows match, and then writes nothing; it returns the only matching row unchanged; with no match it inserts the built row under a fresh id |
| Resolution.Resolve | app/recipe/serializers.py:32-37 | the loop only adds links; it stops at the first get-or-create that fails, and that failure is `MultipleObjectsReturned` |
| Resolution.GetOrCreateSettles | app/recipe/serializers.py:33-37 | once an entry has been resolved, resolving it again returns the same row and writes nothing |
| Resolution.ResolveKeepsRows | app/recipe/serializers.py:32-37 | the loop never changes or drops an existing row |
| Resolution.ResolveNewRows | app/recipe/serializers.py:33-36 | every row the loop adds is the built row of some entry |
| Resolution.ResolveNewLinks | app/recipe/serializers.py:32-37 | every link the loop adds is to a row that some entry selects |
| Resolution.ResolveCovers | app/recipe/serializers.py:32-37 | on success every entry has a linked row that it selects |
| Resolution.ResolveAppend | app/recipe/serializers.py:32 | resolving `xs + ys` resolves `xs` and then, if that succeeded, `ys` |
| Resolution.ResolveRepeatHead | app/recipe/serializers.py:33-37 | an entry repeated at the head of the list is resolved once |
| Resolution.ResolveRepeat | app/recipe/serializers.py:32-37 | an entry repeated right after itself gives the same rows, links and result as a single copy |
| Resolution.ExactIsSelfMatching | app/recipe/serializers.py:33-36 | a lookup that matches exactly the row it would build finds that row again |
| Resolution.ResolveKeepsOnly | app/recipe/serializers.py:33-36 | with an exact lookup, a row that is the only match of an entry stays the only match |
| Resolution.ResolveExactlyOnce | app/recipe/serializers.py:32-37 | with an exact lookup, on success every entry has exactly one matching row, and it is linked |
| Resolution.ResolveNoDuplicates | app/recipe/serializers.py:32-37 | with an exact lookup and no two equal rows to begin with, the loop never fails and never makes two equal rows |
| Ordering.NameLeTotal | app/recipe/views.py:38 | any two names are ordered one way or the other |
| Ordering.NameLeTransitive | app/recipe/views.py:38 | the name order is transitive |
| Ordering.NameLeAntisymmetric | app/recipe/views.py:38 | names ordered both ways are equal |
| Ordering.NameLeReflexive | app/recipe/views.py:38 | every name is ordered before itself |
| Ordering.InsertByName | app/recipe/views.py:38 | inserting into a name-descending list keeps it name-descending and adds exactly that element |
| Ordering.SortByNameDesc | app/recipe/views.py:38 | the result is a permutation of the input, with names never increasing |
| Ordering.NamesDescendingPairwise | app/recipe/views.py:38 | in a name-descending list every earlier name is at least every later one |
| Ordering.DistinctCounts | app/recipe/views.py:38 | a list has no repeats exactly when no element occurs in it twice |
| Ordering.DistinctPermutation | app/recipe/views.py:38 | a permutation of a list without repeats has none |
| Ordering.PermutationMembers | app/recipe/views.py:38 | a permutation has the same elements |
| Serializers.TagLookupIsExact | app/recipe/serializers.py:33-36 | a tag lookup matches a row exactly when the row is the tag it would create |
| Serializers.IngredientLookupFindsNewRows | app/recipe/serializers.py:43-46 | an ingredient lookup matches the row it would create |
| Serializers.OnlySelectedTag | app/recipe/serializers.py:33-36 | the only tag selected by an entry is the only tag of the requester with that name |
| Serializers.GetOrCreateTags | app/recipe/serializers.py:29-37 | only the tag table and this recipe's tag links change. No tag row is changed or dropped. New rows are the requester's and carry payload names. New links go to the requester's tags with payload names. On success every payload name has exactly one tag of the requester, and it is linked. Any failure is `MultipleObjectsReturned` |
| Serializers.GetOrCreateIngredients | app/recipe/serializers.py:39-47 | only the ingredient table and this recipe's ingredient links change. New rows are built from entries for the requester. New links go to the requester's rows that an entry selects. On success every entry has a linked row that it selects |
| Serializers.Validate | app/recipe/serializers.py:25-27 | the payload is accepted exactly when the request is partial or title, time and price are all present; otherwise the error names the first missing field |
| Serializers.Create | app/recipe/serializers.py:49-57 | exactly one recipe is added, under the next id; no other recipe changes; the new recipe is the requester's and holds the supplied scalars, with blank link and description when omitted; existing tag and ingredient rows are never changed or dropped |
| Serializers.Assign | app/recipe/serializers.py:72-73 | each scalar the payload supplies is written and each one it omits is kept; the owner and the links are never touched |
| Serializers.ClearTags | app/recipe/serializers.py:65 | the recipe is left with no tags; users, tag and ingredient rows, every other recipe and this recipe's other fields and ingredient links are unchanged |
| Serializers.ClearIngredients | app/recipe/serializers.py:69 | the recipe is left with no ingredients; users, tag and ingredient rows, every other recipe and this recipe's other fields and tag links are unchanged |
| Serializers.TagStep | app/recipe/serializers.py:64-66 | at most the tag table and this recipe's tag links change |
| Serializers.IngredientStep | app/recipe/serializers.py:68-70 | at most the ingredient table and this recipe's ingredient links change |
| Serializers.Save | app/recipe/serializers.py:72-75 | only the recipe table changes, and within it only this recipe's row. Its owner and links stay. Each supplied scalar is written and each omitted one kept. No key appears or disappears |
| Serializers.Update | app/recipe/serializers.py:59-76 | no recipe appears or disappears, and no other recipe changes. The owner is kept. No tag or ingredient row is changed or dropped. On success each supplied scalar is written and each omitted one kept. Any failure is `MultipleObjectsReturned` |
| SerializerProperties.GetOrCreateTagsKeepsOwners | app/recipe/serializers.py:31-35 | every tag row still has an existing owner |
| SerializerProperties.GetOrCreateTagsKeepsLinks | app/recipe/serializers.py:31-37 | every recipe still links only to tags of its own owner |
| SerializerProperties.GetOrCreateTagsKeepsValid | app/recipe/serializers.py:29-37 | resolving tags for the recipe's owner keeps the store's integrity |
| SerializerProperties.GetOrCreateIngredientsKeepsOwners | app/recipe/serializers.py:41-45 | every ingredient row still has an existing owner |
| SerializerProperties.GetOrCreateIngredientsKeepsLinks | app/recipe/serializers.py:41-47 | every recipe still links only to ingredients of its own owner |
| SerializerProperties.GetOrCreateIngredientsKeepsTagLinks | app/recipe/serializers.py:39-47 | resolving ingredients leaves users, tags, owners and tag links alone |
| SerializerProperties.GetOrCreateIngredientsKeepsValid | app/recipe/serializers.py:39-47 | resolving ingredients for the recipe's owner keeps the store's integrity |
| SerializerProperties.CreateKeepsValid | app/recipe/serializers.py:49-57 | a create keeps the store's integrity: nothing it links belongs to another user |
| SerializerProperties.CreateLinksPayloadTags | app/recipe/tests/test_recipe_api.py:189-214 | after a successful create, the names of the linked tags are exactly the payload's. Every linked tag is the requester's. Each name has one row |
| SerializerProperties.CreateReusesExistingTag | app/recipe/tests/test_recipe_api.py:189-214 | an existing tag of the requester named in the payload is linked, and no second row of that name appears |
| SerializerProperties.CreateRepeatedTag | app/recipe/serializers.py:32-37 | naming a tag twice in a row in a create payload gives the same reply as naming it once |
| SerializerProperties.CreateRepeatedIngredient | app/recipe/serializers.py:42-47 | naming an ingredient twice in a row in a create payload gives the same reply as naming it once |
| SerializerProperties.NamesakeEntriesFailLookup | app/recipe/serializers.py:42-47 | for a name the requester has no ingredient of, the entries `{name}`, `{name, quantity}`, `{name}` create two rows of that name, and the third entry then fails with `MultipleObjectsReturned` |
| SerializerProperties.CreateWithNamesakeEntriesFails | app/recipe/serializers.py:52-55 | a create with those three ingredient entries fails, and the two rows made before the failure stay in the store |
| SerializerProperties.CreateLinksPayloadIngredients | app/recipe/serializers.py:52-55 | after a successful create, every linked ingredient is selected by an entry, and every entry has a linked match |
| SerializerProperties.IngredientWithoutQuantityReusesRow | app/recipe/tests/test_recipe_api.py:288-311 | an entry without a quantity reuses the requester's only ingredient of that name, whatever its quantity, and adds no row |
| SerializerProperties.IngredientWithQuantityAddsRow | app/recipe/serializers.py:43-46 | an entry with a quantity that no row of that name has adds exactly one new row, under the next id, and links it |
| SerializerProperties.DuplicateTagsFailLookup | app/recipe/serializers.py:33-36 | with two tags of one name, naming it fails with `MultipleObjectsReturned` and writes nothing |
| SerializerProperties.NamesakeIngredientsFailLookup | app/recipe/serializers.py:43-46 | with two ingredients of one name, a quantity-less entry of that name fails and writes nothing |
| SerializerProperties.GetOrCreateTagsKeepsNamesUnique | app/recipe/serializers.py:29-37 | when no user has two tags of one name, resolving tags never fails and keeps it so |
| SerializerProperties.UpdateKeepsTagStep | app/recipe/serializers.py:59-76 | after the tag step, the rest of the update leaves the tag table and tag links alone, and the update succeeds only if the tag step did |
| SerializerProperties.TagStepLinksNamedTags | app/recipe/serializers.py:64-66 | a present tag list makes the recipe's tags exactly the requester's tags it names, one row per name |
| SerializerProperties.TagStepKeepsNamedLinks | app/recipe/serializers.py:64-66 | a tag linked before stays linked exactly when the list names it |
| SerializerProperties.UpdateReplacesTags | app/recipe/tests/test_recipe_api.py:229-245 | after an update with a tag list, the linked tag names are exactly the list's, and all of them are the requester's |
| SerializerProperties.UpdateUnlinksUnnamedTags | app/recipe/tests/test_recipe_api.py:229-245 | after an update with a tag list, a previous tag stays linked exactly when its name is in the list |
| SerializerProperties.UpdateReplacesIngredients | app/recipe/tests/test_recipe_api.py:329-344 | after an update with an ingredient list, every linked ingredient matches an entry and every entry has a linked match |
| SerializerProperties.UpdateWithNoTagsClearsLinks | app/recipe/tests/test_recipe_api.py:247-260 | `tags: []` leaves the recipe with no tags and the tag table untouched |
| SerializerProperties.UpdateWithNoIngredientsClearsLinks | app/recipe/tests/test_recipe_api.py:346-359 | `ingredients: []` leaves the recipe with no ingredients and the ingredient table untouched |
| SerializerProperties.UpdateWithoutTagsKeepsLinks | app/recipe/serializers.py:61-66 | an update without a tag list keeps the recipe's tags and the tag table |
| SerializerProperties.UpdateWithoutIngredientsKeepsLinks | app/recipe/serializers.py:62-70 | an update without an ingredient list keeps the recipe's ingredients and the ingredient table |
| SerializerProperties.CreateWithoutListsLinksNothing | app/recipe/serializers.py:51-55 | in a create, an absent tag list links no tag and adds no tag row; an absent ingredient list does the same for ingredients, independently |
| SerializerProperties.UpdateAssignsSuppliedScalars | app/recipe/serializers.py:72-75 | on success each supplied scalar is overwritten and each omitted one kept; the owner never changes; on failure no scalar changes |
| SerializerProperties.UpdateRepeatedTag | app/recipe/serializers.py:64-66 | naming a tag twice in a row in an update payload gives the same reply as naming it once |
| SerializerProperties.UpdateRepeatedIngredient | app/recipe/serializers.py:68-70 | naming an ingredient twice in a row in an update payload gives the same reply as naming it once |
| SerializerProperties.UpdateKeepsValid | app/recipe/serializers.py:59-76 | an update of the requester's recipe keeps the store's integrity |
| SerializerProperties.ReplaceRecipeKeepsValid | app/recipe/serializers.py:72-75 | replacing a recipe by a row with the same owner and no new links keeps the store's integrity |
| SerializerProperties.SaveKeepsValid | app/recipe/serializers.py:72-75 | saving scalar changes keeps the store's integrity |
| SerializerProperties.ClearTagsKeepsValid | app/recipe/serializers.py:65 | clearing tags keeps the store's integrity |
| SerializerProperties.ClearIngredientsKeepsValid | app/recipe/serializers.py:69 | clearing ingredients keeps the store's integrity |
| Views.SerializerClass | app/recipe/views.py:18-22 | the list action uses `RecipeSerializer`, every other action `RecipeDetailSerializer` |
| Views.Render | app/recipe/serializers.py:25-26 | a rendered recipe carries the row's id, title, time, price, link and link ids, but never its owner. The description is present exactly in the detail rendering |
| Views.RecipeQueryset | app/recipe/views.py:15-16 | exactly the requester's recipes, in strictly descending id order |
| Views.RenderAll | app/recipe/serializers.py:19-27 | the rendering has one entry per queryset id, in the same order, each the chosen serializer's rendering of that row |
| Views.RenderAllIds | app/recipe/views.py:15-16 | rendering keeps the queryset's ids in order |
| Views.ListRecipes | app/recipe/views.py:15-22 | anonymous requests get `Unauthorized`. Otherwise the list holds exactly the requester's recipes, newest first, in the list rendering |
| Views.RetrieveRecipe | app/recipe/views.py:15-16 | anonymous requests get `Unauthorized`. Otherwise it succeeds exactly for the requester's recipes, in the detail rendering; any other id is `NotFound` |
| Views.CreateRecipe | app/recipe/views.py:24-26 | anonymous requests get `Unauthorized` and the store is unchanged. A payload missing a required field is `Invalid` and changes nothing. Otherwise the new recipe, under the next id, belongs to the requester and holds the payload's scalars, blank where omitted. On every path users, existing recipes and existing tag and ingredient rows are kept |
| Views.UpdateRecipe | app/recipe/serializers.py:59-76 | anonymous requests get `Unauthorized`. Any recipe but the requester's own is `NotFound` and changes nothing. A PUT missing a required field is `Invalid` and changes nothing. Success leaves the recipe with the requester and writes the supplied scalars, keeping the omitted ones. On every path users and every other recipe are kept, and no tag or ingredient row is changed or dropped |
| Views.DeleteRecipe | app/recipe/views.py:15-16 | anonymous requests get `Unauthorized`. Any recipe but the requester's own is `NotFound` and changes nothing. Otherwise exactly that recipe is removed, every other recipe is kept, and users, tags and ingredients are untouched |
| Views.TagOuts | app/recipe/serializers.py:5-9 | each id is rendered, in order, as its tag's `{id, name}` |
| Views.IngredientOuts | app/recipe/serializers.py:12-16 | each id is rendered, in order, as its ingredient's `{id, name, quantity}` |
| Views.OwnedTagIds | app/recipe/views.py:36-38 | exactly the requester's tags, by descending id |
| Views.OwnedIngredientIds | app/recipe/views.py:36-38 | exactly the requester's ingredients, by descending id |
| Views.TagOutsExact | app/recipe/views.py:36-38 | rendering the requester's tags yields each of them, once |
| Views.IngredientOutsExact | app/recipe/views.py:36-38 | rendering the requester's ingredients yields each of them, once |
| Views.DistinctTagIds | app/recipe/views.py:36-38 | distinct renderings of tag rows have distinct ids |
| Views.DistinctIngredientIds | app/recipe/views.py:36-38 | distinct renderings of ingredient rows have distinct ids |
| Views.TagQueryset | app/recipe/views.py:36-38 | every tag of the requester appears exactly once, with its name. No other tag appears. Names never increase |
| Views.IngredientQueryset | app/recipe/views.py:36-38 | every ingredient of the requester appears exactly once, with its name and quantity. No other ingredient appears. Names never increase |
| Views.ListTags | app/recipe/views.py:33-43 | anonymous requests get `Unauthorized`; otherwise the requester's tags by descending name |
| Views.ListIngredients | app/recipe/views.py:33-49 | anonymous requests get `Unauthorized`; otherwise the requester's ingredients by descending name |
| Views.UpdateTag | app/recipe/views.py:28-43 | anonymous requests get `Unauthorized`. Another user's tag is `NotFound`. A PUT without a name is `Invalid` and changes nothing. Success changes only that tag's name, keeps its owner, and answers the tag as saved |
| Views.UpdateIngredient | app/recipe/views.py:28-49 | anonymous requests get `Unauthorized`. Another user's ingredient is `NotFound`. A PUT without a name is `Invalid`. Success changes only that ingredient's supplied name and quantity, and the reply renders the saved row |
| Views.UnlinkTag | app/recipe/views.py:28 | every recipe loses its link to the tag and nothing else |
| Views.UnlinkIngredient | app/recipe/views.py:28 | every recipe loses its link to the ingredient and nothing else |
| Views.DeleteTag | app/recipe/views.py:28-43 | anonymous requests get `Unauthorized`. Another user's tag is `NotFound`. Otherwise the tag row is removed and every other tag row kept. Each recipe loses exactly its link to that tag. Users and ingredients are untouched |
| Views.DeleteIngredient | app/recipe/views.py:28-49 | anonymous requests get `Unauthorized`. Another user's ingredient is `NotFound`. Otherwise the ingredient row is removed and every other ingredient row kept. Each recipe loses exactly its link to that ingredient. Users and tags are untouched |
| ViewProperties.OthersUntouchedChain | app/recipe/views.py:15-16 | "no row of another user changed" composes across steps |
| ViewProperties.GetOrCreateTagsTouchesOnlyRequester | app/recipe/serializers.py:31-37 | resolving tags never adds, changes or drops another user's row |
| ViewProperties.GetOrCreateIngredientsTouchesOnlyRequester | app/recipe/serializers.py:41-47 | resolving ingredients never adds, changes or drops another user's row |
| ViewProperties.CreateTouchesOnlyRequester | app/recipe/serializers.py:49-57 | `create` writes only rows of the requester |
| ViewProperties.TagStepTouchesOnlyRequester | app/recipe/serializers.py:64-66 | the tag half of `update` writes only rows of the requester |
| ViewProperties.IngredientStepTouchesOnlyRequester | app/recipe/serializers.py:68-70 | the ingredient half of `update` writes only rows of the requester |
| ViewProperties.UpdateTouchesOnlyRequester | app/recipe/serializers.py:59-76 | `update` of the requester's recipe writes only rows of the requester |
| ViewProperties.AnonymousIsRefused | app/recipe/views.py:12-13 | every endpoint refuses an anonymous request with `Unauthorized` and leaves the store as it was |
| ViewProperties.CreateIgnoresPayloadUser | app/recipe/views.py:24-26 | a `user` in the create payload changes neither the reply nor the store; the new recipe's owner is the requester |
| ViewProperties.UpdateIgnoresPayloadUser | app/recipe/serializers.py:25-26 | a `user` in the update payload changes nothing, and a recipe's owner never changes |
| ViewProperties.OthersRecipesAreNotFound | app/recipe/tests/test_recipe_api.py:177-187 | another user's recipe cannot be read, updated or deleted. Each answer is `NotFound`, the store is unchanged, and the recipe is absent from the list |
| ViewProperties.OthersAttributesAreNotFound | app/recipe/views.py:36-38 | another user's tag or ingredient cannot be updated or deleted, and it is absent from the lists |
| ViewProperties.CreateRecipeTouchesOnlyRequester | app/recipe/views.py:24-26 | creating a recipe changes no row of another user |
| ViewProperties.UpdateRecipeTouchesOnlyRequester | app/recipe/views.py:15-16 | updating a recipe changes no row of another user |
| ViewProperties.DeleteRecipeTouchesOnlyRequester | app/recipe/views.py:15-16 | deleting a recipe changes no row of another user |
| ViewProperties.UpdateTagTouchesOnlyRequester | app/recipe/views.py:36-38 | renaming a tag changes no row of another user |
| ViewProperties.UpdateIngredientTouchesOnlyRequester | app/recipe/views.py:36-38 | updating an ingredient changes no row of another user |
| ViewProperties.DeleteTagTouchesOnlyRequester | app/recipe/views.py:36-38 | deleting a tag changes no row of another user, because links never cross owners |
| ViewProperties.DeleteIngredientTouchesOnlyRequester | app/recipe/views.py:36-38 | deleting an ingredient changes no row of another user |
| ViewProperties.CreateRecipeKeepsValid | app/recipe/views.py:24-26 | creating a recipe keeps the store's integrity |
| ViewProperties.UpdateRecipeKeepsValid | app/recipe/views.py:15-16 | updating a recipe keeps the store's integrity |
| ViewProperties.DeleteRecipeKeepsValid | app/recipe/views.py:15-16 | deleting a recipe keeps the store's integrity |
| ViewProperties.UpdateTagKeepsValid | app/recipe/views.py:28-43 | renaming a tag keeps the store's integrity |
| ViewProperties.UpdateIngredientKeepsValid | app/recipe/views.py:28-49 | updating an ingredient keeps the store's integrity |
| ViewProperties.DeleteTagKeepsValid | app/recipe/views.py:28-43 | deleting a tag leaves no dangling link |
| ViewProperties.DeleteIngredientKeepsValid | app/recipe/views.py:28-49 | deleting an ingredient leaves no dangling link |
| ViewProperties.CreateThenRetrieve | app/recipe/tests/test_recipe_api.py:97-112 | a recipe just created is retrievable by its creator with the supplied fields |
| ViewProperties.UpdateThenRetrieve | app/recipe/tests/test_recipe_api.py:114-150 | after a successful PUT or PATCH the owner reads back the supplied scalars and the old values of the omitted ones. A supplied tag list becomes exactly the linked names, and a supplied ingredient list matches the links both ways. An omitted list keeps its links |
| ViewProperties.DeleteThenRetrieve | app/recipe/views.py:15-16 | a recipe just deleted is `NotFound` for its owner |
| ViewProperties.UpdateTagThenList | app/recipe/tests/test_tag_api.py:69-78 | after a rename the tag list shows the new name under the same id |
| ViewProperties.RenameToTakenNameBreaksCreate | app/recipe/serializers.py:33-36 | renaming a tag to the name of another of the requester's tags is accepted and leaves two tags of that name. From then on, a create that names that tag fails with `MultipleObjectsReturned` |

### Assumptions

- `core/models.py` is not part of this model. The model assumes the
  following about it:
  - Omitted `link`, `description` and ingredient `quantity` columns hold the
    empty string.
  - `price` is a whole number of cents.
  - There is no uniqueness constraint on `(user, name)`. So get-or-create can
    meet two matching rows, and then it fails with `MultipleObjectsReturned`
    as Django's `get` does.
- Requests are not wrapped in a transaction (Django's default). A create
  whose tag resolution fails keeps the recipe row it had already inserted,
  together with any tags created before the failure. `Reply` returns that
  partial store.
- Names are ordered by character code, not by the database's collation.
  Rows with equal names come in an unspecified order. The model sorts them
  in one fixed way. The list endpoints return that fixed order, but no
  lemma relies on the order among equal names.
- An authenticated requester is an existing user (`KnownRequester`).
- Only one part of serializer validation is modelled: a full update or
  create must supply `title`, `time_minutes` and `price`, and a full tag or
  ingredient update must supply `name`. Field formats, lengths and decimal
  precision are not checked.

## Left out

- User accounts, token issuance, password rules and email normalisation
  (`app/user/`, `core/models.py`): framework calls and code not part of this
  model.
- The `image` field of `RecipeDetailSerializer` and the image upload
  serializer: file storage and random file names.
- The `wait_for_db` command: it polls the database and sleeps, which is pure
  I/O.
- Filtering tags and ingredients by `assigned_only`, and recipes by tag or
  ingredient ids: tests exercise it, but `app/recipe/views.py` does not
  implement it.
- HTTP status codes, routing and response formatting: a `Result` error stands
  for the status.
- `Decimal` arithmetic: price is a whole number of cents.
- Views.ListTags: it promises non-increasing names, not an order among equal
  names, because the database leaves that open.
- Views.ListIngredients: it promises non-increasing names, not an order among
  equal names, for the same reason.
- `app/app/tests.py`: it tests a `calc` module that is not part of this
  model.
- Concurrent requests: each request runs alone against the store. Two
  simultaneous get-or-creates of one (user, name) can both miss and both
  insert, leaving duplicate rows. The model reaches such duplicates only
  through a sequential path (a tag rename), not through this race.
- Serializers.Validate: it names the first missing required field. DRF
  reports every missing field at once; the model keeps only whether the
  payload is rejected, and one field that causes it.
- Views.Render: the nested `tags` and `ingredients` are rendered by
  `TagSerializer` and `IngredientSerializer` as `{id, name}` and
  `{id, name, quantity}` objects. The model renders only the sets of linked
  ids; the linked rows' fields can be read from the store by id.
- SerializerProperties.CreateRepeatedIngredient: idempotence of ingredient
  entries holds only for identical entries that follow each other. The
  lookup filters on whichever fields an entry supplies, so entries of one
  name spelled differently can create several rows of that name, and a
  later entry can then fail (`NamesakeEntriesFailLookup`). The same limit
  applies to SerializerProperties.UpdateRepeatedIngredient.
- Nested entries without a `name`: every `TagIn` and `IngredientIn` carries
  one. A create or full update with a nameless entry is rejected by the
  nested serializer, so that path is unaffected. In a partial update, DRF may
  skip the missing required field. The entry `{}` would then reach
  `get_or_create(user=...)` with no name filter, selecting all of the
  requester's rows of that kind. That partial-update path is not modelled.

=== FILE: models.dfy ===
/**
 * The rows of the recipe app: users, their tags and ingredients, and their
 * recipes with many-to-many links to tags and ingredients.  A recipe row
 * carries its link sets directly; the join tables are not modelled apart.
 */
module Models {
  import opened Outcomes
  import opened Tables

  datatype Tag = Tag(owner: UserId, name: string)

  datatype Ingredient = Ingredient(owner: UserId, name: string, quantity: string)

  /** `price` is the decimal price in cents. */
  datatype Recipe = Recipe(
    owner: UserId,
    title: string,
    timeMinutes: int,
    price: int,
    link: string,
    description: string,
    tags: set<RowId>,
    ingredients: set<RowId>)

  /** What an optional text column holds when a row is created without it. */
  const Blank: string := ""

  datatype Store = Store(
    users: set<UserId>,
    tags: Table<Tag>,
    ingredients: Table<Ingredient>,
    recipes: Table<Recipe>)
  {
    predicate WellFormed() {
      tags.WellFormed() && ingredients.WellFormed() && recipes.WellFormed()
    }

    /**
     * Every row has an existing owner, and a recipe links only to existing
     * tags and ingredients of its own owner.
     */
    ghost predicate Valid() {
      && WellFormed()
      && (forall k :: k in tags.rows ==> tags.rows[k].owner in users)
      && (forall k :: k in ingredients.rows ==> ingredients.rows[k].owner in users)
      && (forall k :: k in recipes.rows ==> recipes.rows[k].owner in users)
      && (forall k, t :: k in recipes.rows && t in recipes.rows[k].tags ==>
            t in tags.rows && tags.rows[t].owner == recipes.rows[k].owner)
      && (forall k, i :: k in recipes.rows && i in recipes.rows[k].ingredients ==>
            i in ingredients.rows && ingredients.rows[i].owner == recipes.rows[k].owner)
    }

    /** No user has two tags of the same name. */
    ghost predicate TagNamesUnique() {
      NoDuplicates(tags)
    }

    predicate OwnsRecipe(user: UserId, id: RowId) {
      id in recipes.rows && recipes.rows[id].owner == user
    }

    predicate OwnsTag(user: UserId, id: RowId) {
      id in tags.rows && tags.rows[id].owner == user
    }

    predicate OwnsIngredient(user: UserId, id: RowId) {
      id in ingredients.rows && ingredients.rows[id].owner == user
    }
  }

  /**
   * The store after a request, with what the request answered.  Requests
   * are not wrapped in a transaction, so a request that fails part-way
   * leaves behind the writes it made before failing.
   */
  datatype Reply<+T> = Reply(store: Store, result: Result<T>)
}

=== FILE: ordering.dfy ===
/**
 * `order_by('-name')`: names compared character by character, and a sort
 * that lists rows from the greatest name to the least.
 */
module Ordering {

  /** `a` sorts at or before `b` when names are compared by character code. */
  predicate NameLe(a: string, b: string)
    decreases |a|
  {
    || |a| == 0
    || (&& |b| > 0
        && (a[0] < b[0] || (a[0] == b[0] && NameLe(a[1..], b[1..]))))
  }

  lemma {:induction false} NameLeTotal(a: string, b: string)
    ensures NameLe(a, b) || NameLe(b, a)
    decreases |a|
  {
    if |a| > 0 && |b| > 0 && a[0] == b[0] {
      NameLeTotal(a[1..], b[1..]);
    }
  }

  lemma {:induction false} NameLeTransitive(a: string, b: string, c: string)
    requires NameLe(a, b) && NameLe(b, c)
    ensures NameLe(a, c)
    decreases |a|
  {
    if |a| > 0 && a[0] == b[0] && b[0] == c[0] {
      NameLeTransitive(a[1..], b[1..], c[1..]);
    }
  }

  lemma {:induction false} NameLeAntisymmetric(a: string, b: string)
    requires NameLe(a, b) && NameLe(b, a)
    ensures a == b
    decreases |a|
  {
    if |a| > 0 {
      NameLeAntisymmetric(a[1..], b[1..]);
      assert a == [a[0]] + a[1..] && b == [b[0]] + b[1..];
    }
  }

  /** Names never increase from one element to the next. */
  predicate NamesDescending<T>(xs: seq<T>, name: T -> string) {
    forall i :: 0 < i < |xs| ==> NameLe(name(xs[i]), name(xs[i - 1]))
  }

  /** Puts `x` into the name-descending `xs` in front of the first element whose name it reaches. */
  function InsertByName<T>(x: T, xs: seq<T>, name: T -> string): (r: seq<T>)
    requires NamesDescending(xs, name)
    ensures NamesDescending(r, name)
    ensures multiset(r) == multiset(xs) + multiset{x}
    ensures r[0] == x || (|xs| > 0 && r[0] == xs[0])
  {
    if |xs| == 0 || NameLe(name(xs[0]), name(x)) then
      [x] + xs
    else
      var rest := InsertByName(x, xs[1..], name);
      NameLeTotal(name(xs[0]), name(x));
      assert xs == [xs[0]] + xs[1..];
      [xs[0]] + rest
  }

  /** The elements of `xs`, rearranged so that names never increase. */
  function SortByNameDesc<T>(xs: seq<T>, name: T -> string): (r: seq<T>)
    ensures NamesDescending(r, name)
    ensures multiset(r) == multiset(xs)
  {
    if |xs| == 0 then []
    else
      assert xs == [xs[0]] + xs[1..];
      InsertByName(xs[0], SortByNameDesc(xs[1..], name), name)
  }

  /** In a name-descending sequence every earlier name is at least every later one. */
  lemma {:induction false} NamesDescendingPairwise<T>(xs: seq<T>, name: T -> string, i: int, j: int)
    requires NamesDescending(xs, name)
    requires 0 <= i <= j < |xs|
    ensures NameLe(name(xs[j]), name(xs[i]))
    decreases j - i
  {
    if i == j {
      NameLeReflexive(name(xs[i]));
    } else {
      NamesDescendingPairwise(xs, name, i + 1, j);
      NameLeTransitive(name(xs[j]), name(xs[i + 1]), name(xs[i]));
    }
  }

  lemma {:induction false} NameLeReflexive(a: string)
    ensures NameLe(a, a)
    decreases |a|
  {
    if |a| > 0 {
      NameLeReflexive(a[1..]);
    }
  }

  /** No element occurs twice. */
  predicate Distinct<T(==)>(xs: seq<T>) {
    forall i, j :: 0 <= i < j < |xs| ==> xs[i] != xs[j]
  }

  /** A sequence is free of repeats exactly when no element occurs in it more than once. */
  lemma {:induction false} DistinctCounts<T>(xs: seq<T>)
    ensures Distinct(xs) <==> forall x :: multiset(xs)[x] <= 1
  {
    if |xs| > 0 {
      var h, t := xs[0], xs[1..];
      assert xs == [h] + t;
      assert multiset(xs) == multiset{h} + multiset(t);
      DistinctCounts(t);
      if Distinct(xs) {
        assert h !in t;
        assert Distinct(t) by {
          forall i, j | 0 <= i < j < |t| ensures t[i] != t[j] {
            assert t[i] == xs[i + 1] && t[j] == xs[j + 1];
          }
        }
      } else {
        var i, j :| 0 <= i < j < |xs| && xs[i] == xs[j];
        if i == 0 {
          assert xs[j] in t;
          assert multiset(xs)[h] >= 2;
        } else {
          assert t[i - 1] == t[j - 1];
          assert !Distinct(t);
          var x :| multiset(t)[x] > 1;
          assert multiset(xs)[x] > 1;
        }
      }
    }
  }

  /** Rearranging a sequence keeps it free of repeats. */
  lemma DistinctPermutation<T>(xs: seq<T>, ys: seq<T>)
    requires multiset(xs) == multiset(ys)
    requires Distinct(xs)
    ensures Distinct(ys)
  {
    DistinctCounts(xs);
    DistinctCounts(ys);
  }

  /** Permutations have the same elements. */
  lemma PermutationMembers<T>(xs: seq<T>, ys: seq<T>)
    requires multiset(xs) == multiset(ys)
    ensures forall x :: x in xs <==> x in ys
  {
    forall x ensures x in xs <==> x in ys {
      assert x in xs <==> x in multiset(xs);
      assert x in ys <==> x in multiset(ys);
    }
  }
}

=== FILE: outcomes.dfy ===
/** Optional values and the failures the recipe endpoints report. */
module Outcomes {

  datatype Option<+T> = None | Some(value: T) {

    /** The carried value, or `default` when there is none. */
    function GetOr(default: T): T {
      match this
      case Some(v) => v
      case None => default
    }
  }

  /** Every way a request against the recipe API can fail. */
  datatype Error =
    | Unauthorized              // no authenticated user on the request (HTTP 401)
    | NotFound                  // the row is not among the requester's own rows (HTTP 404)
    | Invalid(field: string)    // a required field is missing from the payload (HTTP 400)
    | MultipleObjectsReturned   // a get-or-create lookup selected more than one row

  datatype Result<+T> = Ok(value: T) | Err(error: Error)
}

=== FILE: resolution.dfy ===
/**
 * Django's `get_or_create(user=owner, **fields)` and the loop that runs it
 * over a nested payload list, linking every row it gets to one recipe.
 * The lookup is abstract: `matches(owner, x, row)` says whether the filter
 * built from `owner` and the payload entry `x` selects `row`, and
 * `make(owner, x)` is the row that `create` inserts for that entry.
 */
module Resolution {
  import opened Outcomes
  import opened Tables

  /** Row `k` of `t` is selected by the lookup for `owner` and `x`. */
  predicate Selects<P, R>(t: Table<R>, matches: (UserId, P, R) -> bool, owner: UserId, x: P, k: RowId) {
    k in t.rows && matches(owner, x, t.rows[k])
  }

  /** Row `k` is the one and only row the lookup selects. */
  ghost predicate SelectsOnly<P, R>(t: Table<R>, matches: (UserId, P, R) -> bool, owner: UserId, x: P, k: RowId) {
    && Selects(t, matches, owner, x, k)
    && forall j :: Selects(t, matches, owner, x, j) ==> j == k
  }

  /** A created row is found again by the lookup that created it. */
  ghost predicate SelfMatching<P(!new), R>(matches: (UserId, P, R) -> bool, make: (UserId, P) -> R) {
    forall owner, x :: matches(owner, x, make(owner, x))
  }

  /** The lookup selects exactly the rows equal to the row it would create. */
  ghost predicate Exact<P(!new), R(!new)>(matches: (UserId, P, R) -> bool, make: (UserId, P) -> R) {
    forall owner, x, row :: matches(owner, x, row) <==> row == make(owner, x)
  }

  datatype Got<R> = Got(table: Table<R>, result: Result<RowId>)

  /**
   * `get_or_create`: `get()` raises when several rows match, returns the row
   * when one does, and otherwise the row built from the lookup is inserted.
   */
  function GetOrCreate<P, R>(t: Table<R>, matches: (UserId, P, R) -> bool, make: (UserId, P) -> R,
                             owner: UserId, x: P): (r: Got<R>)
    requires t.WellFormed()
    ensures r.table.WellFormed()
    ensures r.result.Err? <==>
      exists a, b :: a != b && Selects(t, matches, owner, x, a) && Selects(t, matches, owner, x, b)
    ensures r.result.Err? ==> r.result.error == MultipleObjectsReturned && r.table == t
    ensures || r.table == t
            || (&& r.result.Ok?
                && r.result.value !in t.rows
                && r.table.rows == t.rows[r.result.value := make(owner, x)])
    ensures forall k :: SelectsOnly(t, matches, owner, x, k) ==> r == Got(t, Ok(k))
    ensures (forall k :: !Selects(t, matches, owner, x, k)) ==>
      && r.result.Ok?
      && r.result.value !in t.rows
      && r.table.rows == t.rows[r.result.value := make(owner, x)]
  {
    var found := Filter(t, row => matches(owner, x, row));
    assert forall k :: Selects(t, matches, owner, x, k) <==> k in found;
    if |found| == 0 then
      var ins := Insert(t, make(owner, x));
      Got(ins.table, Ok(ins.id))
    else if |found| == 1 then
      Got(t, Ok(found[0]))
    else
      assert found[0] != found[1] && found[0] in found && found[1] in found;
      Got(t, Err(MultipleObjectsReturned))
  }

  datatype Resolved<R> = Resolved(table: Table<R>, links: set<RowId>, result: Result<()>)

  /**
   * The loop of `_get_or_create_tags` / `_get_or_create_ingredients`: for each
   * entry in order, get-or-create its row and add the row to `links`.  The
   * first failing lookup ends the loop; what was written before it stays.
   */
  function Resolve<P, R>(t: Table<R>, matches: (UserId, P, R) -> bool, make: (UserId, P) -> R,
                         owner: UserId, links: set<RowId>, xs: seq<P>): (r: Resolved<R>)
    requires t.WellFormed()
    ensures r.table.WellFormed()
    ensures links <= r.links
    ensures r.result.Err? ==> r.result.error == MultipleObjectsReturned
    decreases |xs|
  {
    if |xs| == 0 then Resolved(t, links, Ok(()))
    else
      var got := GetOrCreate(t, matches, make, owner, xs[0]);
      match got.result
      case Err(e) => Resolved(got.table, links, Err(e))
      case Ok(id) => Resolve(got.table, matches, make, owner, links + {id}, xs[1..])
  }

  /** After a successful get-or-create the row it returned is the only one its lookup selects. */
  lemma GetOrCreateSettles<P(!new), R>(t: Table<R>, matches: (UserId, P, R) -> bool, make: (UserId, P) -> R,
                                 owner: UserId, x: P)
    requires t.WellFormed()
    requires SelfMatching(matches, make)
    ensures var r := GetOrCreate(t, matches, make, owner, x);
      r.result.Ok? ==> SelectsOnly(r.table, matches, owner, x, r.result.value)
  {
    var r := GetOrCreate(t, matches, make, owner, x);
    if r.result.Ok? && !exists k :: Selects(t, matches, owner, x, k) {
      assert matches(owner, x, make(owner, x));
    }
  }

  /** Every row already in the table keeps its key and its contents. */
  lemma {:induction false} ResolveKeepsRows<P, R>(t: Table<R>, matches: (UserId, P, R) -> bool,
                                                  make: (UserId, P) -> R, owner: UserId,
                                                  links: set<RowId>, xs: seq<P>)
    requires t.WellFormed()
    ensures var r := Resolve(t, matches, make, owner, links, xs);
      forall k :: k in t.rows ==> k in r.table.rows && r.table.rows[k] == t.rows[k]
    decreases |xs|
  {
    if |xs| > 0 {
      var got := GetOrCreate(t, matches, make, owner, xs[0]);
      if got.result.Ok? {
        ResolveKeepsRows(got.table, matches, make, owner, links + {got.result.value}, xs[1..]);
      }
    }
  }

  /** Every row the loop inserts is the row built from one of the payload entries. */
  lemma {:induction false} ResolveNewRows<P, R>(t: Table<R>, matches: (UserId, P, R) -> bool,
                                                make: (UserId, P) -> R, owner: UserId,
                                                links: set<RowId>, xs: seq<P>)
    requires t.WellFormed()
    ensures var r := Resolve(t, matches, make, owner, links, xs);
      forall k :: k in r.table.rows && k !in t.rows ==> exists x :: x in xs && r.table.rows[k] == make(owner, x)
    decreases |xs|
  {
    if |xs| > 0 {
      var got := GetOrCreate(t, matches, make, owner, xs[0]);
      if got.result.Ok? {
        var rest := xs[1..];
        var links' := links + {got.result.value};
        ResolveNewRows(got.table, matches, make, owner, links', rest);
        ResolveKeepsRows(got.table, matches, make, owner, links', rest);
        var r := Resolve(got.table, matches, make, owner, links', rest);
        forall k | k in r.table.rows && k !in t.rows
          ensures exists x :: x in xs && r.table.rows[k] == make(owner, x)
        {
          if k in got.table.rows {
            assert r.table.rows[k] == make(owner, xs[0]);
          } else {
            var x :| x in rest && r.table.rows[k] == make(owner, x);
            assert x in xs;
          }
        }
      }
    }
  }

  /** Every row the loop links is selected by the lookup of one of the payload entries. */
  lemma {:induction false} ResolveNewLinks<P(!new), R>(t: Table<R>, matches: (UserId, P, R) -> bool,
                                                       make: (UserId, P) -> R, owner: UserId,
                                                       links: set<RowId>, xs: seq<P>)
    requires t.WellFormed()
    requires SelfMatching(matches, make)
    ensures var r := Resolve(t, matches, make, owner, links, xs);
      forall k :: k in r.links && k !in links ==> exists x :: x in xs && Selects(r.table, matches, owner, x, k)
    decreases |xs|
  {
    if |xs| > 0 {
      var got := GetOrCreate(t, matches, make, owner, xs[0]);
      if got.result.Ok? {
        var id := got.result.value;
        var rest := xs[1..];
        GetOrCreateSettles(t, matches, make, owner, xs[0]);
        ResolveNewLinks(got.table, matches, make, owner, links + {id}, rest);
        ResolveKeepsRows(got.table, matches, make, owner, links + {id}, rest);
        var r := Resolve(got.table, matches, make, owner, links + {id}, rest);
        forall k | k in r.links && k !in links
          ensures exists x :: x in xs && Selects(r.table, matches, owner, x, k)
        {
          if k == id {
            assert Selects(r.table, matches, owner, xs[0], k);
          } else {
            var x :| x in rest && Selects(r.table, matches, owner, x, k);
            assert x in xs;
          }
        }
      }
    }
  }

  /** When the loop succeeds, every payload entry is linked to a row its lookup selects. */
  lemma {:induction false} ResolveCovers<P(!new), R>(t: Table<R>, matches: (UserId, P, R) -> bool,
                                                     make: (UserId, P) -> R, owner: UserId,
                                                     links: set<RowId>, xs: seq<P>)
    requires t.WellFormed()
    requires SelfMatching(matches, make)
    ensures var r := Resolve(t, matches, make, owner, links, xs);
      r.result.Ok? ==> forall x :: x in xs ==> exists k :: k in r.links && Selects(r.table, matches, owner, x, k)
    decreases |xs|
  {
    if |xs| > 0 {
      var got := GetOrCreate(t, matches, make, owner, xs[0]);
      if got.result.Ok? {
        var id := got.result.value;
        var rest := xs[1..];
        GetOrCreateSettles(t, matches, make, owner, xs[0]);
        ResolveCovers(got.table, matches, make, owner, links + {id}, rest);
        ResolveKeepsRows(got.table, matches, make, owner, links + {id}, rest);
        var r := Resolve(got.table, matches, make, owner, links + {id}, rest);
        if r.result.Ok? {
          forall x | x in xs
            ensures exists k :: k in r.links && Selects(r.table, matches, owner, x, k)
          {
            if x == xs[0] {
              assert id in r.links && Selects(r.table, matches, owner, x, id);
            } else {
              assert x in rest;
            }
          }
        }
      }
    }
  }

  /** Running the loop over `xs + ys` is running it over `xs` and, if that succeeded, over `ys`. */
  lemma {:induction false} ResolveAppend<P, R>(t: Table<R>, matches: (UserId, P, R) -> bool,
                                               make: (UserId, P) -> R, owner: UserId,
                                               links: set<RowId>, xs: seq<P>, ys: seq<P>)
    requires t.WellFormed()
    ensures var a := Resolve(t, matches, make, owner, links, xs);
      Resolve(t, matches, make, owner, links, xs + ys)
        == if a.result.Err? then a else Resolve(a.table, matches, make, owner, a.links, ys)
    decreases |xs|
  {
    if |xs| == 0 {
      assert xs + ys == ys;
    } else {
      assert (xs + ys)[0] == xs[0];
      assert (xs + ys)[1..] == xs[1..] + ys;
      var got := GetOrCreate(t, matches, make, owner, xs[0]);
      if got.result.Ok? {
        ResolveAppend(got.table, matches, make, owner, links + {got.result.value}, xs[1..], ys);
      }
    }
  }

  /** An entry repeated at the head of the loop's input is resolved once. */
  lemma ResolveRepeatHead<P(!new), R>(t: Table<R>, matches: (UserId, P, R) -> bool,
                                      make: (UserId, P) -> R, owner: UserId,
                                      links: set<RowId>, x: P, ys: seq<P>)
    requires t.WellFormed()
    requires SelfMatching(matches, make)
    ensures Resolve(t, matches, make, owner, links, [x, x] + ys)
         == Resolve(t, matches, make, owner, links, [x] + ys)
  {
    var got := GetOrCreate(t, matches, make, owner, x);
    assert ([x, x] + ys)[0] == x && ([x, x] + ys)[1..] == [x] + ys;
    assert ([x] + ys)[0] == x && ([x] + ys)[1..] == ys;
    if got.result.Ok? {
      var id := got.result.value;
      GetOrCreateSettles(t, matches, make, owner, x);
      assert GetOrCreate(got.table, matches, make, owner, x) == Got(got.table, Ok(id));
      assert links + {id} + {id} == links + {id};
    }
  }

  /**
   * Get-or-create followed by a set-add is idempotent: an entry repeated
   * right after itself changes nothing, neither the rows nor the links.
   */
  lemma ResolveRepeat<P(!new), R>(t: Table<R>, matches: (UserId, P, R) -> bool,
                                  make: (UserId, P) -> R, owner: UserId,
                                  links: set<RowId>, xs: seq<P>, x: P, ys: seq<P>)
    requires t.WellFormed()
    requires SelfMatching(matches, make)
    ensures Resolve(t, matches, make, owner, links, xs + [x, x] + ys)
         == Resolve(t, matches, make, owner, links, xs + [x] + ys)
  {
    assert xs + [x, x] + ys == xs + ([x, x] + ys);
    assert xs + [x] + ys == xs + ([x] + ys);
    ResolveAppend(t, matches, make, owner, links, xs, [x, x] + ys);
    ResolveAppend(t, matches, make, owner, links, xs, [x] + ys);
    var a := Resolve(t, matches, make, owner, links, xs);
    if a.result.Ok? {
      ResolveRepeatHead(a.table, matches, make, owner, a.links, x, ys);
    }
  }

  /** A lookup that selects exactly the row it would create finds its own rows again. */
  lemma ExactIsSelfMatching<P(!new), R(!new)>(matches: (UserId, P, R) -> bool, make: (UserId, P) -> R)
    requires Exact(matches, make)
    ensures SelfMatching(matches, make)
  {
    forall owner, x ensures matches(owner, x, make(owner, x)) {
      assert make(owner, x) == make(owner, x);
    }
  }

  /**
   * With an exact lookup, a row that is the only one selected by some entry
   * stays the only one: the loop never inserts a second row equal to it.
   */
  lemma {:induction false} ResolveKeepsOnly<P(!new), R(!new)>(t: Table<R>, matches: (UserId, P, R) -> bool,
                                                              make: (UserId, P) -> R, owner: UserId,
                                                              links: set<RowId>, xs: seq<P>, y: P, k: RowId)
    requires t.WellFormed()
    requires Exact(matches, make)
    requires SelectsOnly(t, matches, owner, y, k)
    ensures SelectsOnly(Resolve(t, matches, make, owner, links, xs).table, matches, owner, y, k)
    decreases |xs|
  {
    if |xs| > 0 {
      var got := GetOrCreate(t, matches, make, owner, xs[0]);
      if got.table != t {
        var n := got.result.value;
        forall j | Selects(got.table, matches, owner, y, j) ensures j == k {
          if j != n {
            assert Selects(t, matches, owner, y, j);
          }
        }
      }
      if got.result.Ok? {
        ResolveKeepsOnly(got.table, matches, make, owner, links + {got.result.value}, xs[1..], y, k);
      }
    }
  }

  /**
   * With an exact lookup, a successful loop leaves every payload entry linked
   * to exactly one row: an entry given twice yields one row and one link.
   */
  lemma {:induction false} ResolveExactlyOnce<P(!new), R(!new)>(t: Table<R>, matches: (UserId, P, R) -> bool,
                                                                make: (UserId, P) -> R, owner: UserId,
                                                                links: set<RowId>, xs: seq<P>)
    requires t.WellFormed()
    requires Exact(matches, make)
    ensures var r := Resolve(t, matches, make, owner, links, xs);
      r.result.Ok? ==> forall x :: x in xs ==> exists k :: k in r.links && SelectsOnly(r.table, matches, owner, x, k)
    decreases |xs|
  {
    if |xs| > 0 {
      var got := GetOrCreate(t, matches, make, owner, xs[0]);
      if got.result.Ok? {
        var id := got.result.value;
        var rest := xs[1..];
        ExactIsSelfMatching(matches, make);
        GetOrCreateSettles(t, matches, make, owner, xs[0]);
        ResolveExactlyOnce(got.table, matches, make, owner, links + {id}, rest);
        ResolveKeepsOnly(got.table, matches, make, owner, links + {id}, rest, xs[0], id);
        var r := Resolve(got.table, matches, make, owner, links + {id}, rest);
        if r.result.Ok? {
          forall x | x in xs
            ensures exists k :: k in r.links && SelectsOnly(r.table, matches, owner, x, k)
          {
            if x == xs[0] {
              assert id in r.links;
            } else {
              assert x in rest;
            }
          }
        }
      }
    }
  }

  /**
   * With an exact lookup over a table without duplicate rows, the loop never
   * fails and never creates a duplicate.
   */
  lemma {:induction false} ResolveNoDuplicates<P(!new), R(!new)>(t: Table<R>, matches: (UserId, P, R) -> bool,
                                                                 make: (UserId, P) -> R, owner: UserId,
                                                                 links: set<RowId>, xs: seq<P>)
    requires t.WellFormed()
    requires Exact(matches, make)
    requires NoDuplicates(t)
    ensures var r := Resolve(t, matches, make, owner, links, xs);
      r.result.Ok? && NoDuplicates(r.table)
    decreases |xs|
  {
    if |xs| > 0 {
      var got := GetOrCreate(t, matches, make, owner, xs[0]);
      if got.table != t {
        forall a | a in t.rows ensures t.rows[a] != make(owner, xs[0]) {
          assert !Selects(t, matches, owner, xs[0], a);
        }
        assert NoDuplicates(got.table);
      }
      ResolveNoDuplicates(got.table, matches, make, owner, links + {got.result.value}, xs[1..]);
    }
  }
}

=== FILE: serializer_properties.dfy ===
/**
 * What `RecipeSerializer.create` and `update` promise about a recipe's tags,
 * ingredients and scalar attributes.
 */
module SerializerProperties {
  import opened Outcomes
  import opened Tables
  import opened Models
  import opened Resolution
  import opened Serializers

  /** After resolving tags for the recipe's own owner, every link of every recipe is to a tag of its owner. */
  lemma GetOrCreateTagsKeepsLinks(s: Store, requester: UserId, id: RowId, xs: seq<TagIn>)
    requires s.Valid() && requester in s.users
    requires s.OwnsRecipe(requester, id)
    ensures var s2 := GetOrCreateTags(s, requester, id, xs).store;
      forall k, t :: k in s2.recipes.rows && t in s2.recipes.rows[k].tags ==>
        t in s2.tags.rows && s2.tags.rows[t].owner == s2.recipes.rows[k].owner
  {
    var s2 := GetOrCreateTags(s, requester, id, xs).store;
    forall k, t | k in s2.recipes.rows && t in s2.recipes.rows[k].tags
      ensures t in s2.tags.rows && s2.tags.rows[t].owner == s2.recipes.rows[k].owner
    {
      if k == id && t !in s.recipes.rows[id].tags {
        assert s2.OwnsTag(requester, t);
      } else {
        assert t in s.recipes.rows[k].tags;
      }
    }
  }

  /** After resolving tags for the recipe's own owner, every tag row has an existing owner. */
  lemma GetOrCreateTagsKeepsOwners(s: Store, requester: UserId, id: RowId, xs: seq<TagIn>)
    requires s.Valid() && requester in s.users
    requires s.OwnsRecipe(requester, id)
    ensures var s2 := GetOrCreateTags(s, requester, id, xs).store;
      forall k :: k in s2.tags.rows ==> s2.tags.rows[k].owner in s2.users
  {
  }

  /** Resolving tags for the recipe's own owner keeps the store's integrity. */
  lemma GetOrCreateTagsKeepsValid(s: Store, requester: UserId, id: RowId, xs: seq<TagIn>)
    requires s.Valid() && requester in s.users
    requires s.OwnsRecipe(requester, id)
    ensures GetOrCreateTags(s, requester, id, xs).store.Valid()
  {
    GetOrCreateTagsKeepsOwners(s, requester, id, xs);
    GetOrCreateTagsKeepsLinks(s, requester, id, xs);
  }

  /** After resolving ingredients for the recipe's own owner, every ingredient row has an existing owner. */
  lemma GetOrCreateIngredientsKeepsOwners(s: Store, requester: UserId, id: RowId, xs: seq<IngredientIn>)
    requires s.Valid() && requester in s.users
    requires s.OwnsRecipe(requester, id)
    ensures var s2 := GetOrCreateIngredients(s, requester, id, xs).store;
      forall k :: k in s2.ingredients.rows ==> s2.ingredients.rows[k].owner in s2.users
  {
    var s2 := GetOrCreateIngredients(s, requester, id, xs).store;
    forall k | k in s2.ingredients.rows ensures s2.ingredients.rows[k].owner in s2.users {
      if k !in s.ingredients.rows {
        var x :| x in xs && s2.ingredients.rows[k] == NewIngredient(requester, x);
      }
    }
  }

  /** After resolving ingredients for the recipe's own owner, every link of every recipe is to an ingredient of its owner. */
  lemma GetOrCreateIngredientsKeepsLinks(s: Store, requester: UserId, id: RowId, xs: seq<IngredientIn>)
    requires s.Valid() && requester in s.users
    requires s.OwnsRecipe(requester, id)
    ensures var s2 := GetOrCreateIngredients(s, requester, id, xs).store;
      forall k, i :: k in s2.recipes.rows && i in s2.recipes.rows[k].ingredients ==>
        i in s2.ingredients.rows && s2.ingredients.rows[i].owner == s2.recipes.rows[k].owner
  {
    var s2 := GetOrCreateIngredients(s, requester, id, xs).store;
    forall k, i | k in s2.recipes.rows && i in s2.recipes.rows[k].ingredients
      ensures i in s2.ingredients.rows && s2.ingredients.rows[i].owner == s2.recipes.rows[k].owner
    {
      if k == id && i !in s.recipes.rows[id].ingredients {
        var x :| x in xs && IngredientLookup(requester, x, s2.ingredients.rows[i]);
      } else {
        assert i in s.recipes.rows[k].ingredients;
      }
    }
  }

  /** Resolving ingredients changes no tag, no tag link and no owner. */
  lemma GetOrCreateIngredientsKeepsTagLinks(s: Store, requester: UserId, id: RowId, xs: seq<IngredientIn>)
    requires s.Valid() && s.OwnsRecipe(requester, id)
    ensures var s2 := GetOrCreateIngredients(s, requester, id, xs).store;
      && s2.WellFormed()
      && s2.users == s.users
      && s2.tags == s.tags
      && s2.recipes.rows.Keys == s.recipes.rows.Keys
      && (forall k :: k in s2.recipes.rows ==>
            s2.recipes.rows[k].owner == s.recipes.rows[k].owner && s2.recipes.rows[k].tags == s.recipes.rows[k].tags)
  {
    var s2 := GetOrCreateIngredients(s, requester, id, xs).store;
    assert OnlyIngredientsOf(s, s2, id);
  }

  /** Resolving ingredients for the recipe's own owner keeps the store's integrity. */
  lemma GetOrCreateIngredientsKeepsValid(s: Store, requester: UserId, id: RowId, xs: seq<IngredientIn>)
    requires s.Valid() && requester in s.users
    requires s.OwnsRecipe(requester, id)
    ensures GetOrCreateIngredients(s, requester, id, xs).store.Valid()
  {
    GetOrCreateIngredientsKeepsTagLinks(s, requester, id, xs);
    GetOrCreateIngredientsKeepsOwners(s, requester, id, xs);
    GetOrCreateIngredientsKeepsLinks(s, requester, id, xs);
  }

  /** A created recipe keeps the store's integrity: nothing it links belongs to another user. */
  lemma CreateKeepsValid(s: Store, requester: UserId, p: RecipePayload)
    requires s.Valid() && requester in s.users
    requires HasRequired(p)
    ensures Create(s, requester, p).store.Valid()
  {
    var ins := Insert(s.recipes, NewRecipe(requester, p));
    var s1 := s.(recipes := ins.table);
    assert s1.Valid();
    GetOrCreateTagsKeepsValid(s1, requester, ins.id, p.tags.GetOr([]));
    var r1 := GetOrCreateTags(s1, requester, ins.id, p.tags.GetOr([]));
    if r1.result.Ok? {
      GetOrCreateIngredientsKeepsValid(r1.store, requester, ins.id, p.ingredients.GetOr([]));
    }
  }

  /**
   * After a successful create the recipe's tags are exactly the requester's
   * tags named in the payload: one row per name, reused when it existed.
   */
  lemma CreateLinksPayloadTags(s: Store, requester: UserId, p: RecipePayload)
    requires s.WellFormed() && HasRequired(p)
    ensures var r := Create(s, requester, p);
      r.result.Ok? ==>
        var id := r.result.value;
        && LinkedTagNames(r.store, id) == TagNames(p.tags.GetOr([]))
        && (forall k :: k in r.store.recipes.rows[id].tags ==> r.store.OwnsTag(requester, k))
        && (forall x :: x in p.tags.GetOr([]) ==>
              exists k :: k in r.store.recipes.rows[id].tags && OnlyTagNamed(r.store, requester, x.name, k))
  {
    var xs := p.tags.GetOr([]);
    var ins := Insert(s.recipes, NewRecipe(requester, p));
    var s1 := s.(recipes := ins.table);
    var r1 := GetOrCreateTags(s1, requester, ins.id, xs);
    var r := Create(s, requester, p);
    if r.result.Ok? {
      var id := ins.id;
      var r2 := GetOrCreateIngredients(r1.store, requester, id, p.ingredients.GetOr([]));
      assert r.store == r2.store;
      assert r.store.tags == r1.store.tags;
      assert r.store.recipes.rows[id].tags == r1.store.recipes.rows[id].tags;
      forall x | x in xs
        ensures exists k :: k in r.store.recipes.rows[id].tags && OnlyTagNamed(r.store, requester, x.name, k)
      {
        var k :| k in r1.store.recipes.rows[id].tags && OnlyTagNamed(r1.store, requester, x.name, k);
        assert OnlyTagNamed(r.store, requester, x.name, k);
      }
      forall n | n in TagNames(xs) ensures n in LinkedTagNames(r.store, id) {
        var x :| x in xs && x.name == n;
        var k :| k in r.store.recipes.rows[id].tags && OnlyTagNamed(r.store, requester, x.name, k);
      }
    }
  }

  /** A payload tag that the requester already has is linked, and no second row of that name appears. */
  lemma CreateReusesExistingTag(s: Store, requester: UserId, p: RecipePayload, k: RowId)
    requires s.WellFormed() && HasRequired(p)
    requires k in s.tags.rows && s.tags.rows[k].owner == requester
    requires TagIn(s.tags.rows[k].name) in p.tags.GetOr([])
    ensures var r := Create(s, requester, p);
      r.result.Ok? ==>
        && k in r.store.recipes.rows[r.result.value].tags
        && OnlyTagNamed(r.store, requester, s.tags.rows[k].name, k)
  {
    var r := Create(s, requester, p);
    CreateLinksPayloadTags(s, requester, p);
    if r.result.Ok? {
      var ins := Insert(s.recipes, NewRecipe(requester, p));
      var r1 := GetOrCreateTags(s.(recipes := ins.table), requester, ins.id, p.tags.GetOr([]));
      var r2 := GetOrCreateIngredients(r1.store, requester, ins.id, p.ingredients.GetOr([]));
      assert r.store == r2.store;
      assert r.store.tags.rows[k] == s.tags.rows[k];
      var x := TagIn(s.tags.rows[k].name);
      var j :| j in r.store.recipes.rows[r.result.value].tags && OnlyTagNamed(r.store, requester, x.name, j);
      assert j == k;
    }
  }

  /**
   * Get-or-create followed by a set-add is idempotent: naming a tag twice in
   * a row within one payload creates exactly what naming it once creates.
   */
  lemma CreateRepeatedTag(s: Store, requester: UserId, p: RecipePayload,
                          xs: seq<TagIn>, x: TagIn, ys: seq<TagIn>)
    requires s.WellFormed() && HasRequired(p)
    requires p.tags == Some(xs + [x, x] + ys)
    ensures Create(s, requester, p) == Create(s, requester, p.(tags := Some(xs + [x] + ys)))
  {
    TagLookupIsExact();
    ExactIsSelfMatching(TagLookup, NewTag);
    ResolveRepeat(s.tags, TagLookup, NewTag, requester, {}, xs, x, ys);
  }

  /** Naming an ingredient twice in a row within one payload creates exactly what naming it once creates. */
  lemma CreateRepeatedIngredient(s: Store, requester: UserId, p: RecipePayload,
                                 xs: seq<IngredientIn>, x: IngredientIn, ys: seq<IngredientIn>)
    requires s.WellFormed() && HasRequired(p)
    requires p.ingredients == Some(xs + [x, x] + ys)
    ensures Create(s, requester, p) == Create(s, requester, p.(ingredients := Some(xs + [x] + ys)))
  {
    var ins := Insert(s.recipes, NewRecipe(requester, p));
    var r1 := GetOrCreateTags(s.(recipes := ins.table), requester, ins.id, p.tags.GetOr([]));
    IngredientLookupFindsNewRows();
    if r1.result.Ok? {
      ResolveRepeat(r1.store.ingredients, IngredientLookup, NewIngredient, requester, {}, xs, x, ys);
    }
  }

  /** Naming an ingredient twice in a row within an update's payload changes nothing against naming it once. */
  lemma UpdateRepeatedIngredient(s: Store, requester: UserId, id: RowId, p: RecipePayload,
                                 xs: seq<IngredientIn>, x: IngredientIn, ys: seq<IngredientIn>)
    requires s.WellFormed() && id in s.recipes.rows
    requires p.ingredients == Some(xs + [x, x] + ys)
    ensures Update(s, requester, id, p) == Update(s, requester, id, p.(ingredients := Some(xs + [x] + ys)))
  {
    var r1 := TagStep(s, requester, id, p.tags);
    IngredientLookupFindsNewRows();
    if r1.result.Ok? {
      ResolveRepeat(r1.store.ingredients, IngredientLookup, NewIngredient, requester, {}, xs, x, ys);
    }
  }

  /**
   * A create whose ingredient list reads `{name}`, `{name, quantity}`,
   * `{name}` for a name new to the requester fails on the third entry, and
   * the two rows the first two entries made stay behind.
   */
  lemma CreateWithNamesakeEntriesFails(s: Store, requester: UserId, p: RecipePayload, name: string, quantity: string)
    requires s.WellFormed() && HasRequired(p)
    requires quantity != Blank
    requires p.tags == None
    requires p.ingredients == Some([IngredientIn(name, None), IngredientIn(name, Some(quantity)), IngredientIn(name, None)])
    requires forall k :: k in s.ingredients.rows ==> s.ingredients.rows[k].owner != requester || s.ingredients.rows[k].name != name
    ensures var r := Create(s, requester, p);
      && r.result == Err(MultipleObjectsReturned)
      && exists a, b :: && a != b && a !in s.ingredients.rows && b !in s.ingredients.rows
                        && a in r.store.ingredients.rows && r.store.ingredients.rows[a] == Ingredient(requester, name, Blank)
                        && b in r.store.ingredients.rows && r.store.ingredients.rows[b] == Ingredient(requester, name, quantity)
  {
    var ins := Insert(s.recipes, NewRecipe(requester, p));
    var s1 := s.(recipes := ins.table);
    var r1 := GetOrCreateTags(s1, requester, ins.id, []);
    assert r1.result.Ok?;
    assert r1.store.ingredients == s.ingredients;
    NamesakeEntriesFailLookup(s.ingredients, requester, {}, name, quantity);
  }

  /**
   * After a successful create every ingredient entry is linked to a row of
   * the requester that its lookup selects, and every link is such a row.
   */
  lemma CreateLinksPayloadIngredients(s: Store, requester: UserId, p: RecipePayload)
    requires s.WellFormed() && HasRequired(p)
    ensures var r := Create(s, requester, p);
      r.result.Ok? ==>
        var id := r.result.value;
        var links := r.store.recipes.rows[id].ingredients;
        && (forall k :: k in links ==>
              k in r.store.ingredients.rows
              && exists x :: x in p.ingredients.GetOr([]) && IngredientLookup(requester, x, r.store.ingredients.rows[k]))
        && (forall x :: x in p.ingredients.GetOr([]) ==>
              exists k :: k in links && k in r.store.ingredients.rows && IngredientLookup(requester, x, r.store.ingredients.rows[k]))
  {
  }

  /**
   * An ingredient entry without a quantity selects on the name alone, so the
   * requester's only ingredient of that name is reused, whatever its quantity.
   */
  lemma IngredientWithoutQuantityReusesRow(s: Store, requester: UserId, id: RowId, name: string, k: RowId)
    requires s.WellFormed() && id in s.recipes.rows
    requires k in s.ingredients.rows
    requires s.ingredients.rows[k].owner == requester && s.ingredients.rows[k].name == name
    requires forall j :: (j in s.ingredients.rows && s.ingredients.rows[j].owner == requester
                           && s.ingredients.rows[j].name == name) ==> j == k
    ensures var r := GetOrCreateIngredients(s, requester, id, [IngredientIn(name, None)]);
      && r.result.Ok?
      && r.store.ingredients == s.ingredients
      && r.store.recipes.rows[id].ingredients == s.recipes.rows[id].ingredients + {k}
  {
    var x := IngredientIn(name, None);
    var links := s.recipes.rows[id].ingredients;
    assert SelectsOnly(s.ingredients, IngredientLookup, requester, x, k);
    assert GetOrCreate(s.ingredients, IngredientLookup, NewIngredient, requester, x) == Got(s.ingredients, Ok(k));
    assert [x][1..] == [];
    assert Resolve(s.ingredients, IngredientLookup, NewIngredient, requester, links, [x])
        == Resolved(s.ingredients, links + {k}, Ok(()));
  }

  /**
   * An ingredient entry with a quantity selects on it too: when none of the
   * requester's ingredients of that name has that quantity, a new row is added.
   */
  lemma IngredientWithQuantityAddsRow(s: Store, requester: UserId, id: RowId, name: string, quantity: string)
    requires s.WellFormed() && id in s.recipes.rows
    requires forall j :: (j in s.ingredients.rows && s.ingredients.rows[j].owner == requester
                           && s.ingredients.rows[j].name == name) ==> s.ingredients.rows[j].quantity != quantity
    ensures var r := GetOrCreateIngredients(s, requester, id, [IngredientIn(name, Some(quantity))]);
      && r.result.Ok?
      && s.ingredients.next !in s.ingredients.rows
      && r.store.ingredients.rows == s.ingredients.rows[s.ingredients.next := Ingredient(requester, name, quantity)]
      && r.store.recipes.rows[id].ingredients == s.recipes.rows[id].ingredients + {s.ingredients.next}
  {
    var x := IngredientIn(name, Some(quantity));
    var links := s.recipes.rows[id].ingredients;
    assert forall j :: !Selects(s.ingredients, IngredientLookup, requester, x, j);
    var got := GetOrCreate(s.ingredients, IngredientLookup, NewIngredient, requester, x);
    assert got.result == Ok(s.ingredients.next);
    assert [x][1..] == [];
    assert Resolve(s.ingredients, IngredientLookup, NewIngredient, requester, links, [x])
        == Resolved(got.table, links + {s.ingredients.next}, Ok(()));
  }

  /**
   * A requester with two tags of one name (nothing in the schema prevents
   * it) can no longer use that name in a payload: the lookup raises and
   * nothing is written.
   */
  lemma DuplicateTagsFailLookup(s: Store, requester: UserId, id: RowId, name: string, a: RowId, b: RowId)
    requires s.WellFormed() && id in s.recipes.rows
    requires a != b && a in s.tags.rows && b in s.tags.rows
    requires s.tags.rows[a] == Tag(requester, name) && s.tags.rows[b] == Tag(requester, name)
    ensures GetOrCreateTags(s, requester, id, [TagIn(name)]) == Reply(s, Err(MultipleObjectsReturned))
  {
    assert Selects(s.tags, TagLookup, requester, TagIn(name), a);
    assert Selects(s.tags, TagLookup, requester, TagIn(name), b);
    assert s.recipes == Table(s.recipes.rows[id := s.recipes.rows[id].(tags := s.recipes.rows[id].tags)], s.recipes.next);
  }

  /**
   * Two ingredients of one name with different quantities make every
   * quantity-less entry of that name fail.
   */
  lemma NamesakeIngredientsFailLookup(s: Store, requester: UserId, id: RowId, name: string, a: RowId, b: RowId)
    requires s.WellFormed() && id in s.recipes.rows
    requires a != b && a in s.ingredients.rows && b in s.ingredients.rows
    requires s.ingredients.rows[a].owner == requester && s.ingredients.rows[a].name == name
    requires s.ingredients.rows[b].owner == requester && s.ingredients.rows[b].name == name
    ensures GetOrCreateIngredients(s, requester, id, [IngredientIn(name, None)]) == Reply(s, Err(MultipleObjectsReturned))
  {
    assert Selects(s.ingredients, IngredientLookup, requester, IngredientIn(name, None), a);
    assert Selects(s.ingredients, IngredientLookup, requester, IngredientIn(name, None), b);
    assert s.recipes == Table(s.recipes.rows[id := s.recipes.rows[id].(ingredients := s.recipes.rows[id].ingredients)], s.recipes.next);
  }

  /** An entry no ingredient row matches inserts the row it builds. */
  lemma UnmatchedEntryInserts(t: Table<Ingredient>, owner: UserId, x: IngredientIn)
    requires t.WellFormed()
    requires forall k :: k in t.rows ==> !IngredientLookup(owner, x, t.rows[k])
    ensures var g := GetOrCreate(t, IngredientLookup, NewIngredient, owner, x);
      && g.result.Ok? && g.result.value !in t.rows
      && g.table.rows == t.rows[g.result.value := NewIngredient(owner, x)]
  {
    assert forall k :: !Selects(t, IngredientLookup, owner, x, k);
  }

  /**
   * The per-field ingredient lookup makes a payload's idempotence depend on
   * how its entries are spelled: `{name}`, `{name, quantity}`, `{name}` for a
   * name the requester does not use yet creates a blank-quantity row, then
   * (the quantity not matching it) a second row of that name, and the third
   * entry then selects both and fails.
   */
  lemma NamesakeEntriesFailLookup(t: Table<Ingredient>, owner: UserId, links: set<RowId>,
                                  name: string, quantity: string)
    requires t.WellFormed()
    requires quantity != Blank
    requires forall k :: k in t.rows ==> t.rows[k].owner != owner || t.rows[k].name != name
    ensures var xs := [IngredientIn(name, None), IngredientIn(name, Some(quantity)), IngredientIn(name, None)];
      var r := Resolve(t, IngredientLookup, NewIngredient, owner, links, xs);
      && r.result == Err(MultipleObjectsReturned)
      && exists a, b :: && a != b && a !in t.rows && b !in t.rows
                        && a in r.table.rows && r.table.rows[a] == Ingredient(owner, name, Blank)
                        && b in r.table.rows && r.table.rows[b] == Ingredient(owner, name, quantity)
  {
    var bare, full := IngredientIn(name, None), IngredientIn(name, Some(quantity));
    var g1 := GetOrCreate(t, IngredientLookup, NewIngredient, owner, bare);
    UnmatchedEntryInserts(t, owner, bare);
    var a := g1.result.value;
    var g2 := GetOrCreate(g1.table, IngredientLookup, NewIngredient, owner, full);
    UnmatchedEntryInserts(g1.table, owner, full);
    var b := g2.result.value;
    assert g2.table.rows[a] == Ingredient(owner, name, Blank);
    assert g2.table.rows[b] == Ingredient(owner, name, quantity);
    assert Selects(g2.table, IngredientLookup, owner, bare, a) && Selects(g2.table, IngredientLookup, owner, bare, b);
    var xs := [bare, full, bare];
    assert xs[0..] == xs;
    IngredientLoopStep(t, owner, links, xs, 0);
    IngredientLoopStep(g1.table, owner, links + {a}, xs, 1);
    IngredientLoopFails(g2.table, owner, links + {a} + {b}, xs, 2);
  }

  /** A turn of the ingredient loop, at entry `i`, whose get-or-create succeeds moves on to entry `i + 1`. */
  lemma IngredientLoopStep(t: Table<Ingredient>, owner: UserId, links: set<RowId>, xs: seq<IngredientIn>, i: nat)
    requires t.WellFormed() && i < |xs|
    requires GetOrCreate(t, IngredientLookup, NewIngredient, owner, xs[i]).result.Ok?
    ensures var g := GetOrCreate(t, IngredientLookup, NewIngredient, owner, xs[i]);
      Resolve(t, IngredientLookup, NewIngredient, owner, links, xs[i..])
        == Resolve(g.table, IngredientLookup, NewIngredient, owner, links + {g.result.value}, xs[i + 1..])
  {
    assert xs[i..][0] == xs[i] && xs[i..][1..] == xs[i + 1..];
  }

  /** A turn of the ingredient loop whose get-or-create fails ends the loop with that failure. */
  lemma IngredientLoopFails(t: Table<Ingredient>, owner: UserId, links: set<RowId>, xs: seq<IngredientIn>, i: nat)
    requires t.WellFormed() && i < |xs|
    requires GetOrCreate(t, IngredientLookup, NewIngredient, owner, xs[i]).result.Err?
    ensures Resolve(t, IngredientLookup, NewIngredient, owner, links, xs[i..]) == Resolved(t, links, Err(MultipleObjectsReturned))
  {
    assert xs[i..][0] == xs[i];
  }

  /** With no two equal tags to begin with, resolving tags never fails and never makes two equal tags. */
  lemma GetOrCreateTagsKeepsNamesUnique(s: Store, requester: UserId, id: RowId, xs: seq<TagIn>)
    requires s.WellFormed() && id in s.recipes.rows
    requires s.TagNamesUnique()
    ensures var r := GetOrCreateTags(s, requester, id, xs);
      r.result.Ok? && r.store.TagNamesUnique()
  {
    TagLookupIsExact();
    ResolveNoDuplicates(s.tags, TagLookup, NewTag, requester, s.recipes.rows[id].tags, xs);
  }

  /**
   * Once the tag step has run, the rest of `update` leaves the tag table and
   * the recipe's tag links as that step left them, and the update succeeds
   * only if that step did.
   */
  lemma UpdateKeepsTagStep(s: Store, requester: UserId, id: RowId, p: RecipePayload)
    requires s.WellFormed() && id in s.recipes.rows
    ensures var r := Update(s, requester, id, p);
      var r1 := TagStep(s, requester, id, p.tags);
      && r.store.tags == r1.store.tags
      && r.store.recipes.rows[id].tags == r1.store.recipes.rows[id].tags
      && (r.result.Ok? ==> r1.result.Ok?)
  {
  }

  /**
   * A present tag list replaces the recipe's tags: on success they are
   * exactly the requester's tags named in the list, one row per name.
   */
  lemma TagStepLinksNamedTags(s: Store, requester: UserId, id: RowId, xs: seq<TagIn>)
    requires s.WellFormed() && id in s.recipes.rows
    ensures var r := TagStep(s, requester, id, Some(xs));
      r.result.Ok? ==>
        && LinkedTagNames(r.store, id) == TagNames(xs)
        && (forall k :: k in r.store.recipes.rows[id].tags ==> r.store.OwnsTag(requester, k))
        && (forall x :: x in xs ==>
              exists k :: k in r.store.recipes.rows[id].tags && OnlyTagNamed(r.store, requester, x.name, k))
  {
    var r := TagStep(s, requester, id, Some(xs));
    var links := r.store.recipes.rows[id].tags;
    if r.result.Ok? {
      forall n | n in TagNames(xs) ensures n in LinkedTagNames(r.store, id) {
        var x :| x in xs && x.name == n;
        var k :| k in links && OnlyTagNamed(r.store, requester, x.name, k);
      }
    }
  }

  /** A tag the recipe had before a present tag list stays linked exactly when the list names it. */
  lemma TagStepKeepsNamedLinks(s: Store, requester: UserId, id: RowId, xs: seq<TagIn>)
    requires s.Valid() && s.OwnsRecipe(requester, id)
    ensures var r := TagStep(s, requester, id, Some(xs));
      r.result.Ok? ==>
        forall k :: k in s.recipes.rows[id].tags ==>
          (k in r.store.recipes.rows[id].tags <==> s.tags.rows[k].name in TagNames(xs))
  {
    var r := TagStep(s, requester, id, Some(xs));
    var links := r.store.recipes.rows[id].tags;
    if r.result.Ok? {
      forall k | k in s.recipes.rows[id].tags
        ensures k in links <==> s.tags.rows[k].name in TagNames(xs)
      {
        assert r.store.tags.rows[k] == s.tags.rows[k];
        if s.tags.rows[k].name in TagNames(xs) {
          var x :| x in xs && x.name == s.tags.rows[k].name;
          var j :| j in links && OnlyTagNamed(r.store, requester, x.name, j);
          assert j == k;
        }
      }
    }
  }

  /**
   * An update whose tag list is present replaces the recipe's tags: on
   * success they are exactly the requester's tags named in the list, with
   * one row per name.
   */
  lemma UpdateReplacesTags(s: Store, requester: UserId, id: RowId, p: RecipePayload)
    requires s.WellFormed() && id in s.recipes.rows && p.tags.Some?
    ensures var r := Update(s, requester, id, p);
      r.result.Ok? ==>
        && LinkedTagNames(r.store, id) == TagNames(p.tags.value)
        && (forall k :: k in r.store.recipes.rows[id].tags ==> r.store.OwnsTag(requester, k))
        && (forall x :: x in p.tags.value ==>
              exists k :: k in r.store.recipes.rows[id].tags && OnlyTagNamed(r.store, requester, x.name, k))
  {
    var xs := p.tags.value;
    var r := Update(s, requester, id, p);
    var r1 := TagStep(s, requester, id, Some(xs));
    assert p.tags == Some(xs);
    UpdateKeepsTagStep(s, requester, id, p);
    TagStepLinksNamedTags(s, requester, id, xs);
    assert LinkedTagNames(r.store, id) == LinkedTagNames(r1.store, id);
    forall x | x in xs && r.result.Ok?
      ensures exists k :: k in r.store.recipes.rows[id].tags && OnlyTagNamed(r.store, requester, x.name, k)
    {
      var k :| k in r1.store.recipes.rows[id].tags && OnlyTagNamed(r1.store, requester, x.name, k);
      assert OnlyTagNamed(r.store, requester, x.name, k);
    }
  }

  /**
   * After an update with a tag list, a tag the recipe had before is still
   * linked exactly when its name is in the list.
   */
  lemma UpdateUnlinksUnnamedTags(s: Store, requester: UserId, id: RowId, p: RecipePayload)
    requires s.Valid() && s.OwnsRecipe(requester, id) && p.tags.Some?
    ensures var r := Update(s, requester, id, p);
      r.result.Ok? ==>
        forall k :: k in s.recipes.rows[id].tags ==>
          (k in r.store.recipes.rows[id].tags <==> s.tags.rows[k].name in TagNames(p.tags.value))
  {
    var xs := p.tags.value;
    var r := Update(s, requester, id, p);
    var r1 := TagStep(s, requester, id, Some(xs));
    assert p.tags == Some(xs);
    UpdateKeepsTagStep(s, requester, id, p);
    TagStepKeepsNamedLinks(s, requester, id, xs);
    assert r.store.recipes.rows[id].tags == r1.store.recipes.rows[id].tags;
  }

  /**
   * An update whose ingredient list is present replaces the recipe's
   * ingredients: on success every linked ingredient is the requester's and
   * matches some entry of the list, and every entry has a linked match, so a
   * previous ingredient no entry matches is no longer linked.
   */
  lemma UpdateReplacesIngredients(s: Store, requester: UserId, id: RowId, p: RecipePayload)
    requires s.WellFormed() && id in s.recipes.rows && p.ingredients.Some?
    ensures var r := Update(s, requester, id, p);
      var links := r.store.recipes.rows[id].ingredients;
      r.result.Ok? ==>
        && (forall k :: k in links ==>
              && k in r.store.ingredients.rows
              && exists x :: x in p.ingredients.value && IngredientLookup(requester, x, r.store.ingredients.rows[k]))
        && (forall x :: x in p.ingredients.value ==>
              exists k :: k in links && k in r.store.ingredients.rows
                && IngredientLookup(requester, x, r.store.ingredients.rows[k]))
  {
    var xs := p.ingredients.value;
    var r := Update(s, requester, id, p);
    var r1 := TagStep(s, requester, id, p.tags);
    if r1.result.Ok? {
      var c := ClearIngredients(r1.store, id);
      var r2 := GetOrCreateIngredients(c, requester, id, xs);
      assert IngredientStep(r1.store, requester, id, p.ingredients) == r2;
      if r2.result.Ok? {
        assert r.store == Save(r2.store, id, p);
        assert r.store.ingredients == r2.store.ingredients;
        assert r.store.recipes.rows[id].ingredients == r2.store.recipes.rows[id].ingredients;
        assert c.recipes.rows[id].ingredients == {};
      }
    }
  }

  /** `tags: []` leaves the recipe without tags and every tag row where it was, whatever else happens. */
  lemma UpdateWithNoTagsClearsLinks(s: Store, requester: UserId, id: RowId, p: RecipePayload)
    requires s.WellFormed() && id in s.recipes.rows
    requires p.tags == Some([])
    ensures var r := Update(s, requester, id, p);
      r.store.recipes.rows[id].tags == {} && r.store.tags == s.tags
  {
    UpdateKeepsTagStep(s, requester, id, p);
  }

  /** `ingredients: []` leaves the recipe without ingredients and every ingredient row where it was. */
  lemma UpdateWithNoIngredientsClearsLinks(s: Store, requester: UserId, id: RowId, p: RecipePayload)
    requires s.WellFormed() && id in s.recipes.rows
    requires p.ingredients == Some([])
    ensures var r := Update(s, requester, id, p);
      && r.store.ingredients == s.ingredients
      && (r.result.Ok? ==> r.store.recipes.rows[id].ingredients == {})
  {
  }

  /** An absent tag list leaves the tag table and the recipe's tags as they were, whatever the ingredients do. */
  lemma UpdateWithoutTagsKeepsLinks(s: Store, requester: UserId, id: RowId, p: RecipePayload)
    requires s.WellFormed() && id in s.recipes.rows
    requires p.tags.None?
    ensures var r := Update(s, requester, id, p);
      r.store.recipes.rows[id].tags == s.recipes.rows[id].tags && r.store.tags == s.tags
  {
    UpdateKeepsTagStep(s, requester, id, p);
  }

  /** An absent ingredient list leaves the ingredient table and the recipe's ingredients as they were. */
  lemma UpdateWithoutIngredientsKeepsLinks(s: Store, requester: UserId, id: RowId, p: RecipePayload)
    requires s.WellFormed() && id in s.recipes.rows
    requires p.ingredients.None?
    ensures var r := Update(s, requester, id, p);
      && r.store.recipes.rows[id].ingredients == s.recipes.rows[id].ingredients
      && r.store.ingredients == s.ingredients
  {
  }

  /** A create without tag or ingredient lists links nothing and adds no tag or ingredient row. */
  lemma CreateWithoutListsLinksNothing(s: Store, requester: UserId, p: RecipePayload)
    requires s.WellFormed() && HasRequired(p)
    ensures var r := Create(s, requester, p);
      var rec := r.store.recipes.rows[s.recipes.next];
      && (p.tags.None? ==> rec.tags == {} && r.store.tags == s.tags)
      && (p.ingredients.None? ==> rec.ingredients == {} && r.store.ingredients == s.ingredients)
  {
  }

  /**
   * A successful update overwrites exactly the supplied scalar attributes;
   * a failed one writes none of them.  The owner never changes.
   */
  lemma UpdateAssignsSuppliedScalars(s: Store, requester: UserId, id: RowId, p: RecipePayload)
    requires s.WellFormed() && id in s.recipes.rows
    ensures var r := Update(s, requester, id, p);
      var before := s.recipes.rows[id];
      var after := r.store.recipes.rows[id];
      && after.owner == before.owner
      && (r.result.Ok? ==> ScalarsAssigned(before, p, after))
      && (r.result.Err? ==>
            && after.title == before.title && after.timeMinutes == before.timeMinutes
            && after.price == before.price && after.link == before.link
            && after.description == before.description)
  {
  }

  /** Naming a tag twice in a row within an update's payload changes nothing against naming it once. */
  lemma UpdateRepeatedTag(s: Store, requester: UserId, id: RowId, p: RecipePayload,
                          xs: seq<TagIn>, x: TagIn, ys: seq<TagIn>)
    requires s.WellFormed() && id in s.recipes.rows
    requires p.tags == Some(xs + [x, x] + ys)
    ensures Update(s, requester, id, p) == Update(s, requester, id, p.(tags := Some(xs + [x] + ys)))
  {
    TagLookupIsExact();
    ExactIsSelfMatching(TagLookup, NewTag);
    ResolveRepeat(s.tags, TagLookup, NewTag, requester, {}, xs, x, ys);
  }

  /** An update of the requester's own recipe keeps the store's integrity. */
  lemma UpdateKeepsValid(s: Store, requester: UserId, id: RowId, p: RecipePayload)
    requires s.Valid() && requester in s.users
    requires s.OwnsRecipe(requester, id)
    ensures Update(s, requester, id, p).store.Valid()
  {
    var r1 := TagStep(s, requester, id, p.tags);
    if p.tags.Some? {
      ClearTagsKeepsValid(s, id);
      GetOrCreateTagsKeepsValid(ClearTags(s, id), requester, id, p.tags.value);
    }
    assert r1.store.Valid();
    if r1.result.Ok? {
      var r2 := IngredientStep(r1.store, requester, id, p.ingredients);
      if p.ingredients.Some? {
        ClearIngredientsKeepsValid(r1.store, id);
        GetOrCreateIngredientsKeepsValid(ClearIngredients(r1.store, id), requester, id, p.ingredients.value);
      }
      assert r2.store.Valid();
      if r2.result.Ok? {
        SaveKeepsValid(r2.store, id, p);
      }
    }
  }

  /**
   * Replacing one recipe by a row of the same owner with no links it did not
   * have keeps the store's integrity.
   */
  lemma ReplaceRecipeKeepsValid(s: Store, id: RowId, rec: Recipe)
    requires s.Valid() && id in s.recipes.rows
    requires rec.owner == s.recipes.rows[id].owner
    requires rec.tags <= s.recipes.rows[id].tags && rec.ingredients <= s.recipes.rows[id].ingredients
    ensures s.(recipes := Table(s.recipes.rows[id := rec], s.recipes.next)).Valid()
  {
    var s2 := s.(recipes := Table(s.recipes.rows[id := rec], s.recipes.next));
    forall k | k in s2.recipes.rows
      ensures s2.recipes.rows[k].tags <= s.recipes.rows[k].tags
      ensures s2.recipes.rows[k].ingredients <= s.recipes.rows[k].ingredients
      ensures s2.recipes.rows[k].owner == s.recipes.rows[k].owner
    {
    }
  }

  lemma SaveKeepsValid(s: Store, id: RowId, p: RecipePayload)
    requires s.Valid() && id in s.recipes.rows
    ensures Save(s, id, p).Valid()
  {
    ReplaceRecipeKeepsValid(s, id, Assign(s.recipes.rows[id], p));
  }

  lemma ClearTagsKeepsValid(s: Store, id: RowId)
    requires s.Valid() && id in s.recipes.rows
    ensures ClearTags(s, id).Valid()
  {
    ReplaceRecipeKeepsValid(s, id, s.recipes.rows[id].(tags := {}));
  }

  lemma ClearIngredientsKeepsValid(s: Store, id: RowId)
    requires s.Valid() && id in s.recipes.rows
    ensures ClearIngredients(s, id).Valid()
  {
    ReplaceRecipeKeepsValid(s, id, s.recipes.rows[id].(ingredients := {}));
  }
}

=== FILE: serializers.dfy ===
/**
 * `RecipeSerializer`: the nested tag and ingredient lists of a recipe
 * payload are resolved by get-or-create on behalf of the requesting user,
 * on create and, with replace-on-presence, on update.
 */
module Serializers {
  import opened Outcomes
  import opened Tables
  import opened Models
  import opened Resolution

  /** A nested tag entry; `id` is read-only, so only the name arrives. */
  datatype TagIn = TagIn(name: string)

  /** A nested ingredient entry; the quantity may be left out. */
  datatype IngredientIn = IngredientIn(name: string, quantity: Option<string>)

  /**
   * The request body of a recipe create or update.  `tags` and
   * `ingredients` are `None` when the key is absent and `Some([])` when it
   * is an empty list.  `user` stands for an owner the client may send: it is
   * not among the serializer's fields, so nothing below ever reads it.
   */
  datatype RecipePayload = RecipePayload(
    title: Option<string>,
    timeMinutes: Option<int>,
    price: Option<int>,
    link: Option<string>,
    description: Option<string>,
    tags: Option<seq<TagIn>>,
    ingredients: Option<seq<IngredientIn>>,
    user: Option<UserId>)

  /** `Tag.objects.get_or_create(user=owner, name=...)` selects the owner's tags of that name. */
  predicate TagLookup(owner: UserId, x: TagIn, row: Tag) {
    row.owner == owner && row.name == x.name
  }

  function NewTag(owner: UserId, x: TagIn): Tag {
    Tag(owner, x.name)
  }

  /**
   * `Ingredient.objects.get_or_create(user=owner, **ingredient)` filters on
   * the owner and on every field the entry supplies, and on nothing else.
   */
  predicate IngredientLookup(owner: UserId, x: IngredientIn, row: Ingredient) {
    && row.owner == owner
    && row.name == x.name
    && (x.quantity.Some? ==> row.quantity == x.quantity.value)
  }

  function NewIngredient(owner: UserId, x: IngredientIn): Ingredient {
    Ingredient(owner, x.name, x.quantity.GetOr(Blank))
  }

  /** The names the entries of a tag list carry. */
  ghost function TagNames(xs: seq<TagIn>): set<string> {
    set x | x in xs :: x.name
  }

  /** The names of the tags recipe `id` links to. */
  ghost function LinkedTagNames(s: Store, id: RowId): set<string>
    requires id in s.recipes.rows
  {
    set k | k in s.recipes.rows[id].tags && k in s.tags.rows :: s.tags.rows[k].name
  }

  /** `k` is the one and only tag of `owner` named `name`. */
  ghost predicate OnlyTagNamed(s: Store, owner: UserId, name: string, k: RowId) {
    && k in s.tags.rows
    && s.tags.rows[k] == Tag(owner, name)
    && forall j :: j in s.tags.rows && s.tags.rows[j] == Tag(owner, name) ==> j == k
  }

  /** `s2` is `s` with at most the tag table and the tag links of recipe `id` changed. */
  ghost predicate OnlyTagsOf(s: Store, s2: Store, id: RowId)
    requires id in s.recipes.rows
  {
    && id in s2.recipes.rows
    && s2 == s.(tags := s2.tags,
                recipes := Table(s.recipes.rows[id := s.recipes.rows[id].(tags := s2.recipes.rows[id].tags)],
                                 s.recipes.next))
  }

  /** `s2` is `s` with at most the ingredient table and the ingredient links of recipe `id` changed. */
  ghost predicate OnlyIngredientsOf(s: Store, s2: Store, id: RowId)
    requires id in s.recipes.rows
  {
    && id in s2.recipes.rows
    && s2 == s.(ingredients := s2.ingredients,
                recipes := Table(s.recipes.rows[id := s.recipes.rows[id].(ingredients := s2.recipes.rows[id].ingredients)],
                                 s.recipes.next))
  }

  lemma TagLookupIsExact()
    ensures Exact(TagLookup, NewTag)
  {
  }

  lemma IngredientLookupFindsNewRows()
    ensures SelfMatching(IngredientLookup, NewIngredient)
  {
  }

  /** The one tag a tag lookup selects is the only tag of that owner and name. */
  lemma OnlySelectedTag(t: Table<Tag>, owner: UserId, x: TagIn, k: RowId)
    requires SelectsOnly(t, TagLookup, owner, x, k)
    ensures k in t.rows && t.rows[k] == Tag(owner, x.name)
    ensures forall j :: j in t.rows && t.rows[j] == Tag(owner, x.name) ==> j == k
  {
    forall j | j in t.rows && t.rows[j] == Tag(owner, x.name) ensures j == k {
      assert Selects(t, TagLookup, owner, x, j);
    }
  }

  /**
   * `_get_or_create_tags`: each entry's tag is got or created for the
   * requester and added to the tags of recipe `id`.
   */
  function GetOrCreateTags(s: Store, requester: UserId, id: RowId, xs: seq<TagIn>): (r: Reply<()>)
    requires s.WellFormed() && id in s.recipes.rows
    ensures r.store.WellFormed()
    ensures OnlyTagsOf(s, r.store, id)
    // no tag row is changed or dropped; every new one is the requester's and named in the payload
    ensures forall k :: k in s.tags.rows ==> k in r.store.tags.rows && r.store.tags.rows[k] == s.tags.rows[k]
    ensures forall k :: k in r.store.tags.rows && k !in s.tags.rows ==>
      r.store.tags.rows[k].owner == requester && r.store.tags.rows[k].name in TagNames(xs)
    // links are only added, and only to the requester's tags named in the payload
    ensures s.recipes.rows[id].tags <= r.store.recipes.rows[id].tags
    ensures forall k :: k in r.store.recipes.rows[id].tags && k !in s.recipes.rows[id].tags ==>
      r.store.OwnsTag(requester, k) && r.store.tags.rows[k].name in TagNames(xs)
    // on success every payload name has exactly one tag of the requester, and it is linked
    ensures r.result.Ok? ==> forall x :: x in xs ==>
      exists k :: k in r.store.recipes.rows[id].tags && OnlyTagNamed(r.store, requester, x.name, k)
    ensures r.result.Err? ==> r.result.error == MultipleObjectsReturned
  {
    var links := s.recipes.rows[id].tags;
    var res := Resolve(s.tags, TagLookup, NewTag, requester, links, xs);
    TagLookupIsExact();
    ResolveKeepsRows(s.tags, TagLookup, NewTag, requester, links, xs);
    ResolveNewRows(s.tags, TagLookup, NewTag, requester, links, xs);
    ExactIsSelfMatching(TagLookup, NewTag);
    ResolveNewLinks(s.tags, TagLookup, NewTag, requester, links, xs);
    ResolveExactlyOnce(s.tags, TagLookup, NewTag, requester, links, xs);
    var recipes := Table(s.recipes.rows[id := s.recipes.rows[id].(tags := res.links)], s.recipes.next);
    var s2 := s.(tags := res.table, recipes := recipes);
    assert res.result.Ok? ==> forall x :: x in xs ==>
      exists k :: k in res.links && OnlyTagNamed(s2, requester, x.name, k)
    by {
      if res.result.Ok? {
        forall x | x in xs ensures exists k :: k in res.links && OnlyTagNamed(s2, requester, x.name, k) {
          var k :| k in res.links && SelectsOnly(res.table, TagLookup, requester, x, k);
          OnlySelectedTag(res.table, requester, x, k);
        }
      }
    }
    Reply(s2, res.result)
  }

  /**
   * `_get_or_create_ingredients`: each entry's ingredient is got or created
   * for the requester and added to the ingredients of recipe `id`.
   */
  function GetOrCreateIngredients(s: Store, requester: UserId, id: RowId, xs: seq<IngredientIn>): (r: Reply<()>)
    requires s.WellFormed() && id in s.recipes.rows
    ensures r.store.WellFormed()
    ensures OnlyIngredientsOf(s, r.store, id)
    // no ingredient row is changed or dropped; every new one is the requester's, built from an entry
    ensures forall k :: k in s.ingredients.rows ==>
      k in r.store.ingredients.rows && r.store.ingredients.rows[k] == s.ingredients.rows[k]
    ensures forall k :: k in r.store.ingredients.rows && k !in s.ingredients.rows ==>
      exists x :: x in xs && r.store.ingredients.rows[k] == NewIngredient(requester, x)
    // links are only added, and only to the requester's ingredients some entry selects
    ensures s.recipes.rows[id].ingredients <= r.store.recipes.rows[id].ingredients
    ensures forall k :: k in r.store.recipes.rows[id].ingredients && k !in s.recipes.rows[id].ingredients ==>
      && k in r.store.ingredients.rows
      && exists x :: x in xs && IngredientLookup(requester, x, r.store.ingredients.rows[k])
    // on success every entry is linked to an ingredient it selects
    ensures r.result.Ok? ==> forall x :: x in xs ==>
      exists k :: k in r.store.recipes.rows[id].ingredients && k in r.store.ingredients.rows
        && IngredientLookup(requester, x, r.store.ingredients.rows[k])
    ensures r.result.Err? ==> r.result.error == MultipleObjectsReturned
  {
    var links := s.recipes.rows[id].ingredients;
    var res := Resolve(s.ingredients, IngredientLookup, NewIngredient, requester, links, xs);
    IngredientLookupFindsNewRows();
    ResolveKeepsRows(s.ingredients, IngredientLookup, NewIngredient, requester, links, xs);
    ResolveNewRows(s.ingredients, IngredientLookup, NewIngredient, requester, links, xs);
    ResolveNewLinks(s.ingredients, IngredientLookup, NewIngredient, requester, links, xs);
    ResolveCovers(s.ingredients, IngredientLookup, NewIngredient, requester, links, xs);
    var recipes := Table(s.recipes.rows[id := s.recipes.rows[id].(ingredients := res.links)], s.recipes.next);
    Reply(s.(ingredients := res.table, recipes := recipes), res.result)
  }

  /** The fields a create, or an update that is not partial, must carry. */
  predicate HasRequired(p: RecipePayload) {
    p.title.Some? && p.timeMinutes.Some? && p.price.Some?
  }

  /**
   * Field-presence validation: `title`, `time_minutes` and `price` have no
   * default, so they are required unless the update is partial; the nested
   * lists, `link` and `description` never are.
   */
  function Validate(p: RecipePayload, partial: bool): (r: Result<()>)
    ensures r.Ok? <==> partial || HasRequired(p)
    ensures r == Err(Invalid("title")) ==> p.title.None?
    ensures r == Err(Invalid("time_minutes")) ==> p.timeMinutes.None?
    ensures r == Err(Invalid("price")) ==> p.price.None?
    ensures r.Err? ==> r.error in {Invalid("title"), Invalid("time_minutes"), Invalid("price")}
  {
    if partial then Ok(())
    else if p.title.None? then Err(Invalid("title"))
    else if p.timeMinutes.None? then Err(Invalid("time_minutes"))
    else if p.price.None? then Err(Invalid("price"))
    else Ok(())
  }

  /** The row `Recipe.objects.create` inserts: no links yet, omitted text columns blank. */
  function NewRecipe(owner: UserId, p: RecipePayload): Recipe
    requires HasRequired(p)
  {
    Recipe(owner, p.title.value, p.timeMinutes.value, p.price.value,
           p.link.GetOr(Blank), p.description.GetOr(Blank), {}, {})
  }

  /**
   * `create`: the recipe is inserted for `requester`, the user the view
   * passes to `save`, and then its tag and ingredient lists are resolved;
   * a list that is absent counts as empty.
   */
  function Create(s: Store, requester: UserId, p: RecipePayload): (r: Reply<RowId>)
    requires s.WellFormed()
    requires HasRequired(p)
    ensures r.store.WellFormed()
    ensures r.store.users == s.users
    // one recipe is added, under the key the sequence issues next, and no other recipe changes
    ensures var id := s.recipes.next;
      && id !in s.recipes.rows
      && r.store.recipes.rows.Keys == s.recipes.rows.Keys + {id}
      && (forall k :: k in s.recipes.rows ==> r.store.recipes.rows[k] == s.recipes.rows[k])
      && (r.result.Ok? ==> r.result.value == id)
    // the new recipe is the requester's and holds the supplied scalars, whatever else happens
    ensures var id := s.recipes.next;
      var rec := r.store.recipes.rows[id];
      rec == NewRecipe(requester, p).(tags := rec.tags, ingredients := rec.ingredients)
    // existing tag and ingredient rows are only read, never changed or dropped
    ensures forall k :: k in s.tags.rows ==> k in r.store.tags.rows && r.store.tags.rows[k] == s.tags.rows[k]
    ensures forall k :: k in s.ingredients.rows ==>
      k in r.store.ingredients.rows && r.store.ingredients.rows[k] == s.ingredients.rows[k]
    ensures r.result.Err? ==> r.result.error == MultipleObjectsReturned
  {
    var ins := Insert(s.recipes, NewRecipe(requester, p));
    var s1 := s.(recipes := ins.table);
    var r1 := GetOrCreateTags(s1, requester, ins.id, p.tags.GetOr([]));
    if r1.result.Err? then Reply(r1.store, Err(r1.result.error))
    else
      var r2 := GetOrCreateIngredients(r1.store, requester, ins.id, p.ingredients.GetOr([]));
      if r2.result.Err? then Reply(r2.store, Err(r2.result.error))
      else Reply(r2.store, Ok(ins.id))
  }

  /** Each scalar the payload supplies is written into `after`; each one it omits keeps its value in `before`. */
  predicate ScalarsAssigned(before: Recipe, p: RecipePayload, after: Recipe) {
    && (p.title.Some? ==> after.title == p.title.value)
    && (p.title.None? ==> after.title == before.title)
    && (p.timeMinutes.Some? ==> after.timeMinutes == p.timeMinutes.value)
    && (p.timeMinutes.None? ==> after.timeMinutes == before.timeMinutes)
    && (p.price.Some? ==> after.price == p.price.value)
    && (p.price.None? ==> after.price == before.price)
    && (p.link.Some? ==> after.link == p.link.value)
    && (p.link.None? ==> after.link == before.link)
    && (p.description.Some? ==> after.description == p.description.value)
    && (p.description.None? ==> after.description == before.description)
  }

  /** The scalar attributes the payload supplies overwrite the recipe's; the owner is not one of them. */
  function Assign(rec: Recipe, p: RecipePayload): (r: Recipe)
    ensures r.owner == rec.owner && r.tags == rec.tags && r.ingredients == rec.ingredients
    ensures ScalarsAssigned(rec, p, r)
  {
    rec.(title := p.title.GetOr(rec.title),
         timeMinutes := p.timeMinutes.GetOr(rec.timeMinutes),
         price := p.price.GetOr(rec.price),
         link := p.link.GetOr(rec.link),
         description := p.description.GetOr(rec.description))
  }

  /** `instance.tags.clear()`. */
  function ClearTags(s: Store, id: RowId): (r: Store)
    requires id in s.recipes.rows
    ensures r.recipes.rows.Keys == s.recipes.rows.Keys && r.recipes.rows[id].tags == {}
    ensures OnlyTagsOf(s, r, id)
  {
    s.(recipes := Table(s.recipes.rows[id := s.recipes.rows[id].(tags := {})], s.recipes.next))
  }

  /** `instance.ingredients.clear()`. */
  function ClearIngredients(s: Store, id: RowId): (r: Store)
    requires id in s.recipes.rows
    ensures r.recipes.rows.Keys == s.recipes.rows.Keys && r.recipes.rows[id].ingredients == {}
    ensures OnlyIngredientsOf(s, r, id)
  {
    s.(recipes := Table(s.recipes.rows[id := s.recipes.rows[id].(ingredients := {})], s.recipes.next))
  }

  /** The tag half of `update`: a present list clears the recipe's tags and resolves anew. */
  function TagStep(s: Store, requester: UserId, id: RowId, tags: Option<seq<TagIn>>): (r: Reply<()>)
    requires s.WellFormed() && id in s.recipes.rows
    ensures r.store.WellFormed() && id in r.store.recipes.rows
    ensures OnlyTagsOf(s, r.store, id)
  {
    match tags
    case Some(xs) => GetOrCreateTags(ClearTags(s, id), requester, id, xs)
    case None => Reply(s, Ok(()))
  }

  /** The ingredient half of `update`, under the same rule. */
  function IngredientStep(s: Store, requester: UserId, id: RowId, ingredients: Option<seq<IngredientIn>>): (r: Reply<()>)
    requires s.WellFormed() && id in s.recipes.rows
    ensures r.store.WellFormed() && id in r.store.recipes.rows
    ensures OnlyIngredientsOf(s, r.store, id)
  {
    match ingredients
    case Some(xs) => GetOrCreateIngredients(ClearIngredients(s, id), requester, id, xs)
    case None => Reply(s, Ok(()))
  }

  /** `setattr` for each supplied scalar, then `save()`. */
  function Save(s: Store, id: RowId, p: RecipePayload): (r: Store)
    requires s.WellFormed() && id in s.recipes.rows
    ensures r.WellFormed()
    // only the recipe table changes, and within it only row `id`
    ensures r == s.(recipes := r.recipes)
    ensures r.recipes.next == s.recipes.next && r.recipes.rows.Keys == s.recipes.rows.Keys
    ensures forall k :: k in s.recipes.rows && k != id ==> r.recipes.rows[k] == s.recipes.rows[k]
    // its owner and links stay; its supplied scalars are written and the others kept
    ensures var before := s.recipes.rows[id];
      var after := r.recipes.rows[id];
      && after.owner == before.owner && after.tags == before.tags && after.ingredients == before.ingredients
      && ScalarsAssigned(before, p, after)
  {
    s.(recipes := Table(s.recipes.rows[id := Assign(s.recipes.rows[id], p)], s.recipes.next))
  }

  /**
   * `update`: a nested list that is present, even empty, replaces the
   * recipe's links of that kind; an absent one leaves them alone.  Tags go
   * first, then ingredients; only then are the supplied scalars assigned
   * and the recipe saved.
   */
  function Update(s: Store, requester: UserId, id: RowId, p: RecipePayload): (r: Reply<()>)
    requires s.WellFormed() && id in s.recipes.rows
    ensures r.store.WellFormed()
    ensures r.store.users == s.users
    // no recipe appears or disappears, and no other recipe changes
    ensures r.store.recipes.rows.Keys == s.recipes.rows.Keys
    ensures forall k :: k in s.recipes.rows && k != id ==> r.store.recipes.rows[k] == s.recipes.rows[k]
    ensures r.store.recipes.rows[id].owner == s.recipes.rows[id].owner
    // tag and ingredient rows are never changed or dropped
    ensures forall k :: k in s.tags.rows ==> k in r.store.tags.rows && r.store.tags.rows[k] == s.tags.rows[k]
    ensures forall k :: k in s.ingredients.rows ==>
      k in r.store.ingredients.rows && r.store.ingredients.rows[k] == s.ingredients.rows[k]
    // on success the supplied scalars are written and the omitted ones kept
    ensures r.result.Ok? ==> ScalarsAssigned(s.recipes.rows[id], p, r.store.recipes.rows[id])
    ensures r.result.Err? ==> r.result.error == MultipleObjectsReturned
  {
    var r1 := TagStep(s, requester, id, p.tags);
    if r1.result.Err? then r1
    else
      var r2 := IngredientStep(r1.store, requester, id, p.ingredients);
      if r2.result.Err? then r2
      else Reply(Save(r2.store, id, p), Ok(()))
  }
}

=== FILE: tables.dfy ===
/**
 * The relational store as the recipe app sees it through the ORM: a table is
 * a map from primary key to row plus the sequence that issues the next key.
 * Keys are never reused, so a deleted row's key is never handed out again.
 */
module Tables {

  /** Primary key of any row. */
  type RowId = nat

  /** Primary key of a user; rows record their owner by it. */
  type UserId = nat

  datatype Table<R> = Table(rows: map<RowId, R>, next: RowId) {

    /** Every key in use was issued by the table's sequence. */
    predicate WellFormed() {
      forall k :: k in rows ==> k < next
    }
  }

  /** No two rows of `t` are equal in every column. */
  ghost predicate NoDuplicates<R>(t: Table<R>) {
    forall a, b :: a in t.rows && b in t.rows && t.rows[a] == t.rows[b] ==> a == b
  }

  /** Keys strictly decrease along `ids`. */
  predicate Descending(ids: seq<RowId>) {
    forall i, j :: 0 <= i < j < |ids| ==> ids[i] > ids[j]
  }

  /** The keys below `n` that `keep` accepts, largest first. */
  function KeysBelow(n: nat, keep: RowId -> bool): (r: seq<RowId>)
    ensures Descending(r)
    ensures forall k: RowId :: k in r <==> k < n && keep(k)
    decreases n
  {
    if n == 0 then []
    else
      var rest := KeysBelow(n - 1, keep);
      assert forall j :: 0 <= j < |rest| ==> rest[j] in rest;
      (if keep(n - 1) then [n - 1] else []) + rest
  }

  /**
   * `table.filter(p).order_by('-id')`: the keys of the rows satisfying `p`,
   * most recent first, each exactly once.
   */
  function Filter<R>(t: Table<R>, p: R -> bool): (r: seq<RowId>)
    requires t.WellFormed()
    ensures Descending(r)
    ensures forall k: RowId :: k in r <==> k in t.rows && p(t.rows[k])
  {
    KeysBelow(t.next, k => k in t.rows && p(t.rows[k]))
  }

  datatype Inserted<R> = Inserted(table: Table<R>, id: RowId)

  /** `INSERT`: the row gets a key no existing row has, and no other row changes. */
  function Insert<R>(t: Table<R>, row: R): (r: Inserted<R>)
    requires t.WellFormed()
    ensures r.table.WellFormed()
    ensures r.id !in t.rows
    ensures r.table.rows == t.rows[r.id := row]
  {
    Inserted(Table(t.rows[t.next := row], t.next + 1), t.next)
  }

  /** `DELETE`: the row with key `id` is gone and every other row is kept. */
  function Delete<R>(t: Table<R>, id: RowId): (r: Table<R>)
    requires t.WellFormed()
    ensures r.WellFormed()
    ensures r.rows.Keys == t.rows.Keys - {id}
    ensures forall k :: k in r.rows ==> r.rows[k] == t.rows[k]
  {
    Table(t.rows - {id}, t.next)
  }
}

=== FILE: view_properties.dfy ===
/**
 * What the viewsets promise across requests: a user sees and changes only
 * their own rows, the owner of a new recipe is always the requester, and no
 * request breaks the store's integrity.
 */
module ViewProperties {
  import opened Outcomes
  import opened Tables
  import opened Models
  import opened Serializers
  import opened SerializerProperties
  import opened Views

  /** Token authentication only ever names an existing user. */
  predicate KnownRequester(s: Store, req: Requester) {
    req.Authenticated? ==> req.user in s.users
  }

  /**
   * `s2` differs from `s` only in rows owned by `user`: every row of another
   * user is kept unchanged, and every row of another user afterwards was
   * there, the same, before.
   */
  ghost predicate OthersUntouched(s: Store, s2: Store, user: UserId) {
    && (forall k :: k in s.recipes.rows && s.recipes.rows[k].owner != user ==>
          k in s2.recipes.rows && s2.recipes.rows[k] == s.recipes.rows[k])
    && (forall k :: k in s2.recipes.rows && s2.recipes.rows[k].owner != user ==>
          k in s.recipes.rows && s.recipes.rows[k] == s2.recipes.rows[k])
    && (forall k :: k in s.tags.rows && s.tags.rows[k].owner != user ==>
          k in s2.tags.rows && s2.tags.rows[k] == s.tags.rows[k])
    && (forall k :: k in s2.tags.rows && s2.tags.rows[k].owner != user ==>
          k in s.tags.rows && s.tags.rows[k] == s2.tags.rows[k])
    && (forall k :: k in s.ingredients.rows && s.ingredients.rows[k].owner != user ==>
          k in s2.ingredients.rows && s2.ingredients.rows[k] == s.ingredients.rows[k])
    && (forall k :: k in s2.ingredients.rows && s2.ingredients.rows[k].owner != user ==>
          k in s.ingredients.rows && s.ingredients.rows[k] == s2.ingredients.rows[k])
  }

  lemma OthersUntouchedChain(s: Store, s2: Store, s3: Store, user: UserId)
    requires OthersUntouched(s, s2, user) && OthersUntouched(s2, s3, user)
    ensures OthersUntouched(s, s3, user)
  {
  }

  /** Resolving tags for the requester's own recipe touches only the requester's rows. */
  lemma GetOrCreateTagsTouchesOnlyRequester(s: Store, requester: UserId, id: RowId, xs: seq<TagIn>)
    requires s.WellFormed() && s.OwnsRecipe(requester, id)
    ensures OthersUntouched(s, GetOrCreateTags(s, requester, id, xs).store, requester)
  {
  }

  /** Resolving ingredients for the requester's own recipe touches only the requester's rows. */
  lemma GetOrCreateIngredientsTouchesOnlyRequester(s: Store, requester: UserId, id: RowId, xs: seq<IngredientIn>)
    requires s.WellFormed() && s.OwnsRecipe(requester, id)
    ensures OthersUntouched(s, GetOrCreateIngredients(s, requester, id, xs).store, requester)
  {
  }

  /** `create` writes only rows of the requester. */
  lemma CreateTouchesOnlyRequester(s: Store, requester: UserId, p: RecipePayload)
    requires s.WellFormed() && HasRequired(p)
    ensures OthersUntouched(s, Serializers.Create(s, requester, p).store, requester)
  {
    var ins := Insert(s.recipes, NewRecipe(requester, p));
    var s1 := s.(recipes := ins.table);
    var r1 := GetOrCreateTags(s1, requester, ins.id, p.tags.GetOr([]));
    GetOrCreateTagsTouchesOnlyRequester(s1, requester, ins.id, p.tags.GetOr([]));
    OthersUntouchedChain(s, s1, r1.store, requester);
    if r1.result.Ok? {
      GetOrCreateIngredientsTouchesOnlyRequester(r1.store, requester, ins.id, p.ingredients.GetOr([]));
      OthersUntouchedChain(s, r1.store, GetOrCreateIngredients(r1.store, requester, ins.id, p.ingredients.GetOr([])).store, requester);
    }
  }

  lemma TagStepTouchesOnlyRequester(s: Store, requester: UserId, id: RowId, tags: Option<seq<TagIn>>)
    requires s.WellFormed() && s.OwnsRecipe(requester, id)
    ensures OthersUntouched(s, TagStep(s, requester, id, tags).store, requester)
  {
    if tags.Some? {
      GetOrCreateTagsTouchesOnlyRequester(ClearTags(s, id), requester, id, tags.value);
      OthersUntouchedChain(s, ClearTags(s, id), TagStep(s, requester, id, tags).store, requester);
    }
  }

  lemma IngredientStepTouchesOnlyRequester(s: Store, requester: UserId, id: RowId, ingredients: Option<seq<IngredientIn>>)
    requires s.WellFormed() && s.OwnsRecipe(requester, id)
    ensures OthersUntouched(s, IngredientStep(s, requester, id, ingredients).store, requester)
  {
    if ingredients.Some? {
      GetOrCreateIngredientsTouchesOnlyRequester(ClearIngredients(s, id), requester, id, ingredients.value);
      OthersUntouchedChain(s, ClearIngredients(s, id), IngredientStep(s, requester, id, ingredients).store, requester);
    }
  }

  /** `update` of the requester's own recipe writes only rows of the requester. */
  lemma UpdateTouchesOnlyRequester(s: Store, requester: UserId, id: RowId, p: RecipePayload)
    requires s.WellFormed() && s.OwnsRecipe(requester, id)
    ensures OthersUntouched(s, Serializers.Update(s, requester, id, p).store, requester)
  {
    var r1 := TagStep(s, requester, id, p.tags);
    TagStepTouchesOnlyRequester(s, requester, id, p.tags);
    if r1.result.Ok? {
      var r2 := IngredientStep(r1.store, requester, id, p.ingredients);
      IngredientStepTouchesOnlyRequester(r1.store, requester, id, p.ingredients);
      OthersUntouchedChain(s, r1.store, r2.store, requester);
      if r2.result.Ok? {
        OthersUntouchedChain(s, r2.store, Save(r2.store, id, p), requester);
      }
    }
  }

  /** An anonymous request is refused by every endpoint, and the store is left as it was. */
  lemma AnonymousIsRefused(s: Store, id: RowId, p: RecipePayload, partial: bool, tp: TagPatch, ip: IngredientPatch)
    requires s.WellFormed()
    ensures ListRecipes(s, Anonymous) == Err(Unauthorized)
    ensures RetrieveRecipe(s, Anonymous, id) == Err(Unauthorized)
    ensures CreateRecipe(s, Anonymous, p) == Reply(s, Err(Unauthorized))
    ensures UpdateRecipe(s, Anonymous, id, p, partial) == Reply(s, Err(Unauthorized))
    ensures DeleteRecipe(s, Anonymous, id) == Reply(s, Err(Unauthorized))
    ensures ListTags(s, Anonymous) == Err(Unauthorized)
    ensures UpdateTag(s, Anonymous, id, tp, partial) == Reply(s, Err(Unauthorized))
    ensures DeleteTag(s, Anonymous, id) == Reply(s, Err(Unauthorized))
    ensures ListIngredients(s, Anonymous) == Err(Unauthorized)
    ensures UpdateIngredient(s, Anonymous, id, ip, partial) == Reply(s, Err(Unauthorized))
    ensures DeleteIngredient(s, Anonymous, id) == Reply(s, Err(Unauthorized))
  {
  }

  /**
   * The owner of a new recipe is the requester: a `user` in the payload is
   * ignored, and the answer and the resulting store are the same whatever it says.
   */
  lemma CreateIgnoresPayloadUser(s: Store, req: Requester, p: RecipePayload, v: Option<UserId>)
    requires s.WellFormed()
    ensures CreateRecipe(s, req, p.(user := v)) == CreateRecipe(s, req, p)
    ensures req.Authenticated? && HasRequired(p) ==>
      CreateRecipe(s, req, p).store.recipes.rows[s.recipes.next].owner == req.user
  {
    if req.Authenticated? && HasRequired(p) {
      assert NewRecipe(req.user, p.(user := v)) == NewRecipe(req.user, p);
    }
  }

  /** An update never changes a recipe's owner, whatever `user` the payload carries. */
  lemma UpdateIgnoresPayloadUser(s: Store, req: Requester, id: RowId, p: RecipePayload, v: Option<UserId>, partial: bool)
    requires s.WellFormed()
    ensures UpdateRecipe(s, req, id, p.(user := v), partial) == UpdateRecipe(s, req, id, p, partial)
    ensures id in s.recipes.rows ==>
      && id in UpdateRecipe(s, req, id, p, partial).store.recipes.rows
      && UpdateRecipe(s, req, id, p, partial).store.recipes.rows[id].owner == s.recipes.rows[id].owner
  {
    if req.Authenticated? && s.OwnsRecipe(req.user, id) {
      assert Assign(s.recipes.rows[id], p.(user := v)) == Assign(s.recipes.rows[id], p);
    }
  }

  /** A recipe of another user cannot be read, changed or deleted: it is "not found", and nothing changes. */
  lemma OthersRecipesAreNotFound(s: Store, user: UserId, id: RowId, p: RecipePayload, partial: bool)
    requires s.WellFormed()
    requires id in s.recipes.rows && s.recipes.rows[id].owner != user
    ensures RetrieveRecipe(s, Authenticated(user), id) == Err(NotFound)
    ensures UpdateRecipe(s, Authenticated(user), id, p, partial) == Reply(s, Err(NotFound))
    ensures DeleteRecipe(s, Authenticated(user), id) == Reply(s, Err(NotFound))
    ensures ListRecipes(s, Authenticated(user)).Ok?
    ensures id !in IdsOf(ListRecipes(s, Authenticated(user)).value)
  {
  }

  /** A tag or ingredient of another user cannot be listed, changed or deleted. */
  lemma OthersAttributesAreNotFound(s: Store, user: UserId, id: RowId, tp: TagPatch, ip: IngredientPatch, partial: bool)
    requires s.WellFormed()
    ensures id in s.tags.rows && s.tags.rows[id].owner != user ==>
      && UpdateTag(s, Authenticated(user), id, tp, partial) == Reply(s, Err(NotFound))
      && DeleteTag(s, Authenticated(user), id) == Reply(s, Err(NotFound))
      && forall o :: o in ListTags(s, Authenticated(user)).value ==> o.id != id
    ensures id in s.ingredients.rows && s.ingredients.rows[id].owner != user ==>
      && UpdateIngredient(s, Authenticated(user), id, ip, partial) == Reply(s, Err(NotFound))
      && DeleteIngredient(s, Authenticated(user), id) == Reply(s, Err(NotFound))
      && forall o :: o in ListIngredients(s, Authenticated(user)).value ==> o.id != id
  {
  }

  /** Creating a recipe changes no row of any other user. */
  lemma CreateRecipeTouchesOnlyRequester(s: Store, user: UserId, p: RecipePayload)
    requires s.WellFormed()
    ensures OthersUntouched(s, CreateRecipe(s, Authenticated(user), p).store, user)
  {
    if HasRequired(p) {
      CreateTouchesOnlyRequester(s, user, p);
    }
  }

  /** Updating a recipe changes no row of any other user. */
  lemma UpdateRecipeTouchesOnlyRequester(s: Store, user: UserId, id: RowId, p: RecipePayload, partial: bool)
    requires s.WellFormed()
    ensures OthersUntouched(s, UpdateRecipe(s, Authenticated(user), id, p, partial).store, user)
  {
    if s.OwnsRecipe(user, id) && Validate(p, partial).Ok? {
      UpdateTouchesOnlyRequester(s, user, id, p);
    }
  }

  /** Deleting a recipe changes no row of any other user. */
  lemma DeleteRecipeTouchesOnlyRequester(s: Store, user: UserId, id: RowId)
    requires s.WellFormed()
    ensures OthersUntouched(s, DeleteRecipe(s, Authenticated(user), id).store, user)
  {
  }

  /** A tag rename changes no row of any other user. */
  lemma UpdateTagTouchesOnlyRequester(s: Store, user: UserId, id: RowId, tp: TagPatch, partial: bool)
    requires s.WellFormed()
    ensures OthersUntouched(s, UpdateTag(s, Authenticated(user), id, tp, partial).store, user)
  {
  }

  /** An ingredient update changes no row of any other user. */
  lemma UpdateIngredientTouchesOnlyRequester(s: Store, user: UserId, id: RowId, ip: IngredientPatch, partial: bool)
    requires s.WellFormed()
    ensures OthersUntouched(s, UpdateIngredient(s, Authenticated(user), id, ip, partial).store, user)
  {
  }

  /**
   * Deleting a tag changes no row of any other user: the links it drops all
   * belong to the requester's recipes, because links never cross owners.
   */
  lemma DeleteTagTouchesOnlyRequester(s: Store, user: UserId, id: RowId)
    requires s.Valid()
    ensures OthersUntouched(s, DeleteTag(s, Authenticated(user), id).store, user)
  {
    if s.OwnsTag(user, id) {
      var s2 := DeleteTag(s, Authenticated(user), id).store;
      forall k | k in s.recipes.rows && s.recipes.rows[k].owner != user
        ensures s2.recipes.rows[k] == s.recipes.rows[k]
      {
        assert id !in s.recipes.rows[k].tags;
      }
    }
  }

  /** Deleting an ingredient changes no row of any other user, for the same reason. */
  lemma DeleteIngredientTouchesOnlyRequester(s: Store, user: UserId, id: RowId)
    requires s.Valid()
    ensures OthersUntouched(s, DeleteIngredient(s, Authenticated(user), id).store, user)
  {
    if s.OwnsIngredient(user, id) {
      var s2 := DeleteIngredient(s, Authenticated(user), id).store;
      forall k | k in s.recipes.rows && s.recipes.rows[k].owner != user
        ensures s2.recipes.rows[k] == s.recipes.rows[k]
      {
        assert id !in s.recipes.rows[k].ingredients;
      }
    }
  }

  /** Creating a recipe keeps the store's integrity. */
  lemma CreateRecipeKeepsValid(s: Store, req: Requester, p: RecipePayload)
    requires s.Valid() && KnownRequester(s, req)
    ensures CreateRecipe(s, req, p).store.Valid()
  {
    if req.Authenticated? && HasRequired(p) {
      CreateKeepsValid(s, req.user, p);
    }
  }

  /** Updating a recipe keeps the store's integrity. */
  lemma UpdateRecipeKeepsValid(s: Store, req: Requester, id: RowId, p: RecipePayload, partial: bool)
    requires s.Valid() && KnownRequester(s, req)
    ensures UpdateRecipe(s, req, id, p, partial).store.Valid()
  {
    if req.Authenticated? && s.OwnsRecipe(req.user, id) && Validate(p, partial).Ok? {
      UpdateKeepsValid(s, req.user, id, p);
    }
  }

  /** Deleting a recipe keeps the store's integrity. */
  lemma DeleteRecipeKeepsValid(s: Store, req: Requester, id: RowId)
    requires s.Valid()
    ensures DeleteRecipe(s, req, id).store.Valid()
  {
  }

  /** Renaming a tag keeps the store's integrity. */
  lemma UpdateTagKeepsValid(s: Store, req: Requester, id: RowId, tp: TagPatch, partial: bool)
    requires s.Valid()
    ensures UpdateTag(s, req, id, tp, partial).store.Valid()
  {
  }

  /** Updating an ingredient keeps the store's integrity. */
  lemma UpdateIngredientKeepsValid(s: Store, req: Requester, id: RowId, ip: IngredientPatch, partial: bool)
    requires s.Valid()
    ensures UpdateIngredient(s, req, id, ip, partial).store.Valid()
  {
  }

  /** Deleting a tag keeps the store's integrity: no recipe is left linked to it. */
  lemma DeleteTagKeepsValid(s: Store, req: Requester, id: RowId)
    requires s.Valid()
    ensures DeleteTag(s, req, id).store.Valid()
  {
  }

  /** Deleting an ingredient keeps the store's integrity: no recipe is left linked to it. */
  lemma DeleteIngredientKeepsValid(s: Store, req: Requester, id: RowId)
    requires s.Valid()
    ensures DeleteIngredient(s, req, id).store.Valid()
  {
  }

  /** A recipe just created can be retrieved by its creator, with the supplied fields. */
  lemma CreateThenRetrieve(s: Store, user: UserId, p: RecipePayload)
    requires s.WellFormed()
    ensures var c := CreateRecipe(s, Authenticated(user), p);
      c.result.Ok? ==>
        var out := RetrieveRecipe(c.store, Authenticated(user), c.result.value);
        && out.Ok?
        && out.value.title == p.title.value
        && out.value.timeMinutes == p.timeMinutes.value
        && out.value.price == p.price.value
        && out.value.link == p.link.GetOr(Blank)
        && out.value.description == Some(p.description.GetOr(Blank))
  {
  }

  /**
   * After a successful PUT or PATCH the owner reads back the supplied scalars,
   * the old values of the omitted ones, and links replaced exactly for the
   * lists the payload carries and kept for the lists it omits.
   */
  lemma UpdateThenRetrieve(s: Store, user: UserId, id: RowId, p: RecipePayload, partial: bool)
    requires s.WellFormed()
    ensures var u := UpdateRecipe(s, Authenticated(user), id, p, partial);
      u.result.Ok? ==>
        var before := s.recipes.rows[id];
        var out := RetrieveRecipe(u.store, Authenticated(user), id);
        && out.Ok?
        && out.value.title == p.title.GetOr(before.title)
        && out.value.timeMinutes == p.timeMinutes.GetOr(before.timeMinutes)
        && out.value.price == p.price.GetOr(before.price)
        && out.value.link == p.link.GetOr(before.link)
        && out.value.description == Some(p.description.GetOr(before.description))
        && (p.tags.None? ==> out.value.tags == before.tags)
        && (p.tags.Some? ==> LinkedTagNames(u.store, id) == TagNames(p.tags.value))
        && (p.ingredients.None? ==> out.value.ingredients == before.ingredients)
        && (p.ingredients.Some? ==>
              && (forall k :: k in out.value.ingredients ==>
                    && k in u.store.ingredients.rows
                    && exists x :: x in p.ingredients.value && IngredientLookup(user, x, u.store.ingredients.rows[k]))
              && (forall x :: x in p.ingredients.value ==>
                    exists k :: k in out.value.ingredients && k in u.store.ingredients.rows
                      && IngredientLookup(user, x, u.store.ingredients.rows[k])))
  {
    var u := UpdateRecipe(s, Authenticated(user), id, p, partial);
    if u.result.Ok? {
      assert u == Serializers.Update(s, user, id, p);
      if p.tags.None? {
        UpdateWithoutTagsKeepsLinks(s, user, id, p);
      } else {
        UpdateReplacesTags(s, user, id, p);
      }
      if p.ingredients.None? {
        UpdateWithoutIngredientsKeepsLinks(s, user, id, p);
      } else {
        UpdateReplacesIngredients(s, user, id, p);
      }
    }
  }

  /** A recipe just deleted is gone for its owner. */
  lemma DeleteThenRetrieve(s: Store, user: UserId, id: RowId)
    requires s.WellFormed()
    ensures var d := DeleteRecipe(s, Authenticated(user), id);
      RetrieveRecipe(d.store, Authenticated(user), id) == Err(NotFound)
  {
  }

  /** After a rename the tag list shows the new name under the same id. */
  lemma UpdateTagThenList(s: Store, user: UserId, id: RowId, name: string, partial: bool)
    requires s.WellFormed() && s.OwnsTag(user, id)
    ensures var u := UpdateTag(s, Authenticated(user), id, TagPatch(Some(name)), partial);
      && u.result == Ok(TagOut(id, name))
      && TagOut(id, name) in ListTags(u.store, Authenticated(user)).value
  {
  }

  /**
   * Renaming a tag to the name of another of the requester's tags is
   * accepted, and leaves two tags of that name; from then on a recipe
   * naming that tag cannot be created.
   */
  lemma RenameToTakenNameBreaksCreate(s: Store, user: UserId, a: RowId, b: RowId, partial: bool, p: RecipePayload)
    requires s.WellFormed() && s.OwnsTag(user, a) && s.OwnsTag(user, b) && a != b
    requires HasRequired(p) && p.tags == Some([TagIn(s.tags.rows[a].name)])
    ensures var u := UpdateTag(s, Authenticated(user), b, TagPatch(Some(s.tags.rows[a].name)), partial);
      && u.result.Ok?
      && !u.store.TagNamesUnique()
      && CreateRecipe(u.store, Authenticated(user), p).result == Err(MultipleObjectsReturned)
  {
    var name := s.tags.rows[a].name;
    var u := UpdateTag(s, Authenticated(user), b, TagPatch(Some(name)), partial).store;
    assert u.tags.rows[a] == u.tags.rows[b];
    var ins := Insert(u.recipes, NewRecipe(user, p));
    var s1 := u.(recipes := ins.table);
    DuplicateTagsFailLookup(s1, user, ins.id, name, a, b);
  }
}

=== FILE: views.dfy ===
/**
 * `RecipeViewSet`, `TagViewSet` and `IngredientViewSet`.  Every endpoint
 * requires token authentication, and every query starts from the requester's
 * own rows, so a row of another user is indistinguishable from a missing one.
 */
module Views {
  import opened Outcomes
  import opened Tables
  import opened Models
  import opened Ordering
  import Serializers

  /** Who sent the request: token authentication yields a user or nobody. */
  datatype Requester = Anonymous | Authenticated(user: UserId)

  /** The viewset actions of the recipe endpoint. */
  datatype Action = List | Retrieve | Create | Update | PartialUpdate | Destroy

  /** The two recipe serializers: the list one lacks the description. */
  datatype RecipeSerializerClass = RecipeSerializer | RecipeDetailSerializer

  /** A rendered recipe; `description` is present only in the detail rendering. */
  datatype RecipeOut = RecipeOut(
    id: RowId,
    title: string,
    timeMinutes: int,
    price: int,
    link: string,
    tags: set<RowId>,
    ingredients: set<RowId>,
    description: Option<string>)

  datatype TagOut = TagOut(id: RowId, name: string)

  datatype IngredientOut = IngredientOut(id: RowId, name: string, quantity: string)

  /** The body of a tag update. */
  datatype TagPatch = TagPatch(name: Option<string>)

  /** The body of an ingredient update. */
  datatype IngredientPatch = IngredientPatch(name: Option<string>, quantity: Option<string>)

  /** `RecipeViewSet.get_serializer_class`. */
  function SerializerClass(a: Action): (c: RecipeSerializerClass)
    ensures c == RecipeSerializer <==> a == List
  {
    if a == List then RecipeSerializer else RecipeDetailSerializer
  }

  /** The serializer's `fields`: no owner, and the description only in detail. */
  function Render(c: RecipeSerializerClass, id: RowId, rec: Recipe): (r: RecipeOut)
    ensures r.id == id && r.title == rec.title && r.timeMinutes == rec.timeMinutes && r.price == rec.price
    ensures r.link == rec.link && r.tags == rec.tags && r.ingredients == rec.ingredients
    ensures r.description.Some? <==> c == RecipeDetailSerializer
    ensures r.description.Some? ==> r.description.value == rec.description
  {
    RecipeOut(id, rec.title, rec.timeMinutes, rec.price, rec.link, rec.tags, rec.ingredients,
              if c == RecipeDetailSerializer then Some(rec.description) else None)
  }

  /** `RecipeViewSet.get_queryset`: the requester's recipes, newest first. */
  function RecipeQueryset(s: Store, user: UserId): (r: seq<RowId>)
    requires s.WellFormed()
    ensures Descending(r)
    ensures forall k :: k in r <==> s.OwnsRecipe(user, k)
  {
    Filter(s.recipes, (rec: Recipe) => rec.owner == user)
  }

  function RenderAll(s: Store, c: RecipeSerializerClass, ids: seq<RowId>): (r: seq<RecipeOut>)
    requires forall k :: k in ids ==> k in s.recipes.rows
    ensures |r| == |ids|
    ensures forall i :: 0 <= i < |ids| ==> r[i] == Render(c, ids[i], s.recipes.rows[ids[i]])
  {
    if |ids| == 0 then [] else [Render(c, ids[0], s.recipes.rows[ids[0]])] + RenderAll(s, c, ids[1..])
  }

  /** The ids of rendered recipes, in order. */
  function IdsOf(out: seq<RecipeOut>): seq<RowId> {
    if |out| == 0 then [] else [out[0].id] + IdsOf(out[1..])
  }

  /** Rendering keeps the queryset's ids and their order. */
  lemma {:induction false} RenderAllIds(s: Store, c: RecipeSerializerClass, ids: seq<RowId>)
    requires forall k :: k in ids ==> k in s.recipes.rows
    ensures IdsOf(RenderAll(s, c, ids)) == ids
  {
    if |ids| > 0 {
      RenderAllIds(s, c, ids[1..]);
      assert RenderAll(s, c, ids)[1..] == RenderAll(s, c, ids[1..]);
    }
  }

  /**
   * `GET /recipes/`: the requester's recipes, each once, newest first, in the
   * list rendering.
   */
  function ListRecipes(s: Store, req: Requester): (r: Result<seq<RecipeOut>>)
    requires s.WellFormed()
    ensures req.Anonymous? <==> r == Err(Unauthorized)
    ensures r.Ok? ==>
      && Descending(IdsOf(r.value))
      && (forall k :: k in IdsOf(r.value) <==> s.OwnsRecipe(req.user, k))
      && (forall o :: o in r.value ==>
            o.id in s.recipes.rows && o == Render(RecipeSerializer, o.id, s.recipes.rows[o.id]))
  {
    match req
    case Anonymous => Err(Unauthorized)
    case Authenticated(user) =>
      var ids := RecipeQueryset(s, user);
      RenderAllIds(s, SerializerClass(List), ids);
      Ok(RenderAll(s, SerializerClass(List), ids))
  }

  /** `GET /recipes/{id}/`. */
  function RetrieveRecipe(s: Store, req: Requester, id: RowId): (r: Result<RecipeOut>)
    ensures req.Anonymous? <==> r == Err(Unauthorized)
    ensures req.Authenticated? ==> (r.Ok? <==> s.OwnsRecipe(req.user, id))
    ensures req.Authenticated? && !s.OwnsRecipe(req.user, id) ==> r == Err(NotFound)
    ensures r.Ok? ==> r.value == Render(RecipeDetailSerializer, id, s.recipes.rows[id])
  {
    match req
    case Anonymous => Err(Unauthorized)
    case Authenticated(user) =>
      if !s.OwnsRecipe(user, id) then Err(NotFound)
      else Ok(Render(SerializerClass(Retrieve), id, s.recipes.rows[id]))
  }

  /** `POST /recipes/`: validate, then `perform_create` saves with `user=request.user`. */
  function CreateRecipe(s: Store, req: Requester, p: Serializers.RecipePayload): (r: Reply<RowId>)
    requires s.WellFormed()
    ensures r.store.WellFormed()
    ensures req.Anonymous? ==> r == Reply(s, Err(Unauthorized))
    ensures req.Authenticated? && !Serializers.HasRequired(p) ==> r.store == s && r.result.Err? && r.result.error.Invalid?
    ensures req.Authenticated? && Serializers.HasRequired(p) ==>
      && s.OwnsRecipe(req.user, s.recipes.next) == false
      && r.store.OwnsRecipe(req.user, s.recipes.next)
      && (r.result.Ok? ==> r.result.value == s.recipes.next)
      // the new row holds the payload's scalars, blank where omitted
      && var rec := r.store.recipes.rows[s.recipes.next];
         rec == Serializers.NewRecipe(req.user, p).(tags := rec.tags, ingredients := rec.ingredients)
    // users, existing recipes, and existing tag and ingredient rows are kept
    ensures r.store.users == s.users
    ensures forall k :: k in s.recipes.rows ==> k in r.store.recipes.rows && r.store.recipes.rows[k] == s.recipes.rows[k]
    ensures forall k :: k in s.tags.rows ==> k in r.store.tags.rows && r.store.tags.rows[k] == s.tags.rows[k]
    ensures forall k :: k in s.ingredients.rows ==>
      k in r.store.ingredients.rows && r.store.ingredients.rows[k] == s.ingredients.rows[k]
  {
    match req
    case Anonymous => Reply(s, Err(Unauthorized))
    case Authenticated(user) =>
      match Serializers.Validate(p, false)
      case Err(e) => Reply(s, Err(e))
      case Ok(_) => Serializers.Create(s, user, p)
  }

  /** `PUT` (`partial` false) or `PATCH` (`partial` true) on `/recipes/{id}/`. */
  function UpdateRecipe(s: Store, req: Requester, id: RowId, p: Serializers.RecipePayload, partial: bool): (r: Reply<()>)
    requires s.WellFormed()
    ensures r.store.WellFormed()
    ensures req.Anonymous? ==> r == Reply(s, Err(Unauthorized))
    ensures req.Authenticated? && !s.OwnsRecipe(req.user, id) ==> r == Reply(s, Err(NotFound))
    ensures req.Authenticated? && s.OwnsRecipe(req.user, id) && !partial && !Serializers.HasRequired(p) ==>
      r.store == s && r.result.Err? && r.result.error.Invalid?
    ensures r.result.Ok? ==> req.Authenticated? && s.OwnsRecipe(req.user, id) && r.store.OwnsRecipe(req.user, id)
    // on success the supplied scalars are written and the omitted ones kept
    ensures r.result.Ok? ==> Serializers.ScalarsAssigned(s.recipes.rows[id], p, r.store.recipes.rows[id])
    // users and every other recipe are kept; no recipe, tag or ingredient row is dropped or changed
    ensures r.store.users == s.users
    ensures r.store.recipes.rows.Keys == s.recipes.rows.Keys
    ensures forall k :: k in s.recipes.rows && k != id ==> r.store.recipes.rows[k] == s.recipes.rows[k]
    ensures forall k :: k in s.tags.rows ==> k in r.store.tags.rows && r.store.tags.rows[k] == s.tags.rows[k]
    ensures forall k :: k in s.ingredients.rows ==>
      k in r.store.ingredients.rows && r.store.ingredients.rows[k] == s.ingredients.rows[k]
  {
    match req
    case Anonymous => Reply(s, Err(Unauthorized))
    case Authenticated(user) =>
      if !s.OwnsRecipe(user, id) then Reply(s, Err(NotFound))
      else
        match Serializers.Validate(p, partial)
        case Err(e) => Reply(s, Err(e))
        case Ok(_) => Serializers.Update(s, user, id, p)
  }

  /** `DELETE /recipes/{id}/`: the row goes, and its links with it. */
  function DeleteRecipe(s: Store, req: Requester, id: RowId): (r: Reply<()>)
    requires s.WellFormed()
    ensures r.store.WellFormed()
    ensures req.Anonymous? ==> r == Reply(s, Err(Unauthorized))
    ensures req.Authenticated? && !s.OwnsRecipe(req.user, id) ==> r == Reply(s, Err(NotFound))
    ensures req.Authenticated? && s.OwnsRecipe(req.user, id) ==>
      && r.result.Ok?
      && r.store.recipes.rows.Keys == s.recipes.rows.Keys - {id}
      && (forall k :: k in r.store.recipes.rows ==> r.store.recipes.rows[k] == s.recipes.rows[k])
      && r.store == s.(recipes := r.store.recipes)
  {
    match req
    case Anonymous => Reply(s, Err(Unauthorized))
    case Authenticated(user) =>
      if !s.OwnsRecipe(user, id) then Reply(s, Err(NotFound))
      else Reply(s.(recipes := Delete(s.recipes, id)), Ok(()))
  }

  function TagOutName(o: TagOut): string {
    o.name
  }

  function IngredientOutName(o: IngredientOut): string {
    o.name
  }

  function TagOuts(t: Table<Tag>, ids: seq<RowId>): (r: seq<TagOut>)
    requires forall k :: k in ids ==> k in t.rows
    ensures |r| == |ids|
    ensures forall i :: 0 <= i < |ids| ==> r[i] == TagOut(ids[i], t.rows[ids[i]].name)
  {
    if |ids| == 0 then [] else [TagOut(ids[0], t.rows[ids[0]].name)] + TagOuts(t, ids[1..])
  }

  function IngredientOuts(t: Table<Ingredient>, ids: seq<RowId>): (r: seq<IngredientOut>)
    requires forall k :: k in ids ==> k in t.rows
    ensures |r| == |ids|
    ensures forall i :: 0 <= i < |ids| ==>
      r[i] == IngredientOut(ids[i], t.rows[ids[i]].name, t.rows[ids[i]].quantity)
  {
    if |ids| == 0 then []
    else [IngredientOut(ids[0], t.rows[ids[0]].name, t.rows[ids[0]].quantity)] + IngredientOuts(t, ids[1..])
  }

  /** The ids of the requester's tags, largest first. */
  function OwnedTagIds(s: Store, user: UserId): (r: seq<RowId>)
    requires s.WellFormed()
    ensures Descending(r)
    ensures forall k: RowId :: k in r <==> s.OwnsTag(user, k)
  {
    Filter(s.tags, (t: Tag) => t.owner == user)
  }

  /** The ids of the requester's ingredients, largest first. */
  function OwnedIngredientIds(s: Store, user: UserId): (r: seq<RowId>)
    requires s.WellFormed()
    ensures Descending(r)
    ensures forall k: RowId :: k in r <==> s.OwnsIngredient(user, k)
  {
    Filter(s.ingredients, (t: Ingredient) => t.owner == user)
  }

  /** Rendering the requester's tags yields each of them once. */
  lemma TagOutsExact(s: Store, user: UserId)
    requires s.WellFormed()
    ensures forall o :: o in TagOuts(s.tags, OwnedTagIds(s, user)) <==>
      s.OwnsTag(user, o.id) && o.name == s.tags.rows[o.id].name
    ensures Distinct(TagOuts(s.tags, OwnedTagIds(s, user)))
  {
    var ids := OwnedTagIds(s, user);
    var outs := TagOuts(s.tags, ids);
    forall o: TagOut | s.OwnsTag(user, o.id) && o.name == s.tags.rows[o.id].name ensures o in outs {
      var i :| 0 <= i < |ids| && ids[i] == o.id;
      assert outs[i] == o;
    }
  }

  /** Rendering the requester's ingredients yields each of them once. */
  lemma IngredientOutsExact(s: Store, user: UserId)
    requires s.WellFormed()
    ensures forall o :: o in IngredientOuts(s.ingredients, OwnedIngredientIds(s, user)) <==>
      && s.OwnsIngredient(user, o.id)
      && o.name == s.ingredients.rows[o.id].name
      && o.quantity == s.ingredients.rows[o.id].quantity
    ensures Distinct(IngredientOuts(s.ingredients, OwnedIngredientIds(s, user)))
  {
    var ids := OwnedIngredientIds(s, user);
    var outs := IngredientOuts(s.ingredients, ids);
    forall o: IngredientOut | && s.OwnsIngredient(user, o.id)
                              && o.name == s.ingredients.rows[o.id].name
                              && o.quantity == s.ingredients.rows[o.id].quantity
      ensures o in outs
    {
      var i :| 0 <= i < |ids| && ids[i] == o.id;
      assert outs[i] == o;
    }
  }

  /** Distinct renderings of rows read from one table have distinct ids. */
  lemma DistinctTagIds(t: Table<Tag>, r: seq<TagOut>)
    requires Distinct(r)
    requires forall o :: o in r ==> o.id in t.rows && o.name == t.rows[o.id].name
    ensures forall i, j :: 0 <= i < j < |r| ==> r[i].id != r[j].id
  {
    forall i, j | 0 <= i < j < |r| ensures r[i].id != r[j].id {
      assert r[i] in r && r[j] in r;
    }
  }

  /** The same for ingredients. */
  lemma DistinctIngredientIds(t: Table<Ingredient>, r: seq<IngredientOut>)
    requires Distinct(r)
    requires forall o :: o in r ==>
      o.id in t.rows && o.name == t.rows[o.id].name && o.quantity == t.rows[o.id].quantity
    ensures forall i, j :: 0 <= i < j < |r| ==> r[i].id != r[j].id
  {
    forall i, j | 0 <= i < j < |r| ensures r[i].id != r[j].id {
      assert r[i] in r && r[j] in r;
    }
  }

  /**
   * `BaseRecipeAttrViewSet.get_queryset` for tags: each of the requester's
   * tags once, names never increasing.
   */
  function TagQueryset(s: Store, user: UserId): (r: seq<TagOut>)
    requires s.WellFormed()
    ensures NamesDescending(r, TagOutName)
    ensures forall o :: o in r <==> s.OwnsTag(user, o.id) && o.name == s.tags.rows[o.id].name
    ensures forall i, j :: 0 <= i < j < |r| ==> r[i].id != r[j].id
  {
    var outs := TagOuts(s.tags, OwnedTagIds(s, user));
    TagOutsExact(s, user);
    var r := SortByNameDesc(outs, TagOutName);
    PermutationMembers(outs, r);
    DistinctPermutation(outs, r);
    DistinctTagIds(s.tags, r);
    r
  }

  /** The same scoping and order for ingredients. */
  function IngredientQueryset(s: Store, user: UserId): (r: seq<IngredientOut>)
    requires s.WellFormed()
    ensures NamesDescending(r, IngredientOutName)
    ensures forall o :: o in r <==>
      && s.OwnsIngredient(user, o.id)
      && o.name == s.ingredients.rows[o.id].name
      && o.quantity == s.ingredients.rows[o.id].quantity
    ensures forall i, j :: 0 <= i < j < |r| ==> r[i].id != r[j].id
  {
    var outs := IngredientOuts(s.ingredients, OwnedIngredientIds(s, user));
    IngredientOutsExact(s, user);
    var r := SortByNameDesc(outs, IngredientOutName);
    PermutationMembers(outs, r);
    DistinctPermutation(outs, r);
    DistinctIngredientIds(s.ingredients, r);
    r
  }

  /** `GET /tags/`. */
  function ListTags(s: Store, req: Requester): (r: Result<seq<TagOut>>)
    requires s.WellFormed()
    ensures req.Anonymous? <==> r == Err(Unauthorized)
    ensures r.Ok? ==> r.value == TagQueryset(s, req.user)
  {
    match req
    case Anonymous => Err(Unauthorized)
    case Authenticated(user) => Ok(TagQueryset(s, user))
  }

  /** `GET /ingredients/`. */
  function ListIngredients(s: Store, req: Requester): (r: Result<seq<IngredientOut>>)
    requires s.WellFormed()
    ensures req.Anonymous? <==> r == Err(Unauthorized)
    ensures r.Ok? ==> r.value == IngredientQueryset(s, req.user)
  {
    match req
    case Anonymous => Err(Unauthorized)
    case Authenticated(user) => Ok(IngredientQueryset(s, user))
  }

  /** `PUT`/`PATCH /tags/{id}/`: only the name is writable, and it is required unless partial. */
  function UpdateTag(s: Store, req: Requester, id: RowId, patch: TagPatch, partial: bool): (r: Reply<TagOut>)
    requires s.WellFormed()
    ensures r.store.WellFormed()
    ensures req.Anonymous? ==> r == Reply(s, Err(Unauthorized))
    ensures req.Authenticated? && !s.OwnsTag(req.user, id) ==> r == Reply(s, Err(NotFound))
    ensures req.Authenticated? && s.OwnsTag(req.user, id) && !partial && patch.name.None? ==>
      r == Reply(s, Err(Invalid("name")))
    ensures r.result.Ok? ==>
      && req.Authenticated? && s.OwnsTag(req.user, id)
      && r.store == s.(tags := r.store.tags)
      && r.store.tags.rows.Keys == s.tags.rows.Keys
      && (forall k :: k in s.tags.rows && k != id ==> r.store.tags.rows[k] == s.tags.rows[k])
      && r.store.tags.rows[id] == Tag(req.user, patch.name.GetOr(s.tags.rows[id].name))
      && r.result.value == TagOut(id, r.store.tags.rows[id].name)
  {
    match req
    case Anonymous => Reply(s, Err(Unauthorized))
    case Authenticated(user) =>
      if !s.OwnsTag(user, id) then Reply(s, Err(NotFound))
      else if !partial && patch.name.None? then Reply(s, Err(Invalid("name")))
      else
        var row := s.tags.rows[id].(name := patch.name.GetOr(s.tags.rows[id].name));
        Reply(s.(tags := Table(s.tags.rows[id := row], s.tags.next)), Ok(TagOut(id, row.name)))
  }

  /** `PUT`/`PATCH /ingredients/{id}/`: name (required unless partial) and quantity are writable. */
  function UpdateIngredient(s: Store, req: Requester, id: RowId, patch: IngredientPatch, partial: bool): (r: Reply<IngredientOut>)
    requires s.WellFormed()
    ensures r.store.WellFormed()
    ensures req.Anonymous? ==> r == Reply(s, Err(Unauthorized))
    ensures req.Authenticated? && !s.OwnsIngredient(req.user, id) ==> r == Reply(s, Err(NotFound))
    ensures req.Authenticated? && s.OwnsIngredient(req.user, id) && !partial && patch.name.None? ==>
      r == Reply(s, Err(Invalid("name")))
    ensures r.result.Ok? ==>
      && req.Authenticated? && s.OwnsIngredient(req.user, id)
      && r.store == s.(ingredients := r.store.ingredients)
      && r.store.ingredients.rows.Keys == s.ingredients.rows.Keys
      && (forall k :: k in s.ingredients.rows && k != id ==> r.store.ingredients.rows[k] == s.ingredients.rows[k])
      && r.store.ingredients.rows[id] == Ingredient(req.user,
                                                    patch.name.GetOr(s.ingredients.rows[id].name),
                                                    patch.quantity.GetOr(s.ingredients.rows[id].quantity))
      && r.result.value == IngredientOut(id, r.store.ingredients.rows[id].name, r.store.ingredients.rows[id].quantity)
  {
    match req
    case Anonymous => Reply(s, Err(Unauthorized))
    case Authenticated(user) =>
      if !s.OwnsIngredient(user, id) then Reply(s, Err(NotFound))
      else if !partial && patch.name.None? then Reply(s, Err(Invalid("name")))
      else
        var cur := s.ingredients.rows[id];
        var row := cur.(name := patch.name.GetOr(cur.name), quantity := patch.quantity.GetOr(cur.quantity));
        Reply(s.(ingredients := Table(s.ingredients.rows[id := row], s.ingredients.next)),
              Ok(IngredientOut(id, row.name, row.quantity)))
  }

  /** Every recipe loses its link to tag `tag`, if it had one. */
  function UnlinkTag(recipes: Table<Recipe>, tag: RowId): (r: Table<Recipe>)
    requires recipes.WellFormed()
    ensures r.WellFormed() && r.rows.Keys == recipes.rows.Keys
    ensures forall k :: k in r.rows ==>
      r.rows[k] == recipes.rows[k].(tags := recipes.rows[k].tags - {tag})
  {
    Table(map k | k in recipes.rows :: recipes.rows[k].(tags := recipes.rows[k].tags - {tag}), recipes.next)
  }

  /** Every recipe loses its link to ingredient `ingredient`, if it had one. */
  function UnlinkIngredient(recipes: Table<Recipe>, ingredient: RowId): (r: Table<Recipe>)
    requires recipes.WellFormed()
    ensures r.WellFormed() && r.rows.Keys == recipes.rows.Keys
    ensures forall k :: k in r.rows ==>
      r.rows[k] == recipes.rows[k].(ingredients := recipes.rows[k].ingredients - {ingredient})
  {
    Table(map k | k in recipes.rows :: recipes.rows[k].(ingredients := recipes.rows[k].ingredients - {ingredient}),
          recipes.next)
  }

  /** `DELETE /tags/{id}/`: the tag goes, and so do the links to it. */
  function DeleteTag(s: Store, req: Requester, id: RowId): (r: Reply<()>)
    requires s.WellFormed()
    ensures r.store.WellFormed()
    ensures req.Anonymous? ==> r == Reply(s, Err(Unauthorized))
    ensures req.Authenticated? && !s.OwnsTag(req.user, id) ==> r == Reply(s, Err(NotFound))
    ensures req.Authenticated? && s.OwnsTag(req.user, id) ==>
      && r.result.Ok?
      // the tag row goes and every other tag row stays as it was
      && r.store.tags.rows.Keys == s.tags.rows.Keys - {id}
      && (forall k :: k in r.store.tags.rows ==> r.store.tags.rows[k] == s.tags.rows[k])
      // each recipe loses exactly its link to the tag; users and ingredients are untouched
      && r.store == s.(tags := r.store.tags, recipes := r.store.recipes)
      && r.store.recipes.rows.Keys == s.recipes.rows.Keys
      && (forall k :: k in r.store.recipes.rows ==>
            r.store.recipes.rows[k] == s.recipes.rows[k].(tags := s.recipes.rows[k].tags - {id}))
      && (forall k :: k in r.store.recipes.rows ==> id !in r.store.recipes.rows[k].tags)
  {
    match req
    case Anonymous => Reply(s, Err(Unauthorized))
    case Authenticated(user) =>
      if !s.OwnsTag(user, id) then Reply(s, Err(NotFound))
      else Reply(s.(tags := Delete(s.tags, id), recipes := UnlinkTag(s.recipes, id)), Ok(()))
  }

  /** `DELETE /ingredients/{id}/`: the ingredient goes, and so do the links to it. */
  function DeleteIngredient(s: Store, req: Requester, id: RowId): (r: Reply<()>)
    requires s.WellFormed()
    ensures r.store.WellFormed()
    ensures req.Anonymous? ==> r == Reply(s, Err(Unauthorized))
    ensures req.Authenticated? && !s.OwnsIngredient(req.user, id) ==> r == Reply(s, Err(NotFound))
    ensures req.Authenticated? && s.OwnsIngredient(req.user, id) ==>
      && r.result.Ok?
      // the ingredient row goes and every other ingredient row stays as it was
      && r.store.ingredients.rows.Keys == s.ingredients.rows.Keys - {id}
      && (forall k :: k in r.store.ingredients.rows ==> r.store.ingredients.rows[k] == s.ingredients.rows[k])
      // each recipe loses exactly its link to the ingredient; users and tags are untouched
      && r.store == s.(ingredients := r.store.ingredients, recipes := r.store.recipes)
      && r.store.recipes.rows.Keys == s.recipes.rows.Keys
      && (forall k :: k in r.store.recipes.rows ==>
            r.store.recipes.rows[k] == s.recipes.rows[k].(ingredients := s.recipes.rows[k].ingredients - {id}))
      && (forall k :: k in r.store.recipes.rows ==> id !in r.store.recipes.rows[k].ingredients)
  {
    match req
    case Anonymous => Reply(s, Err(Unauthorized))
    case Authenticated(user) =>
      if !s.OwnsIngredient(user, id) then Reply(s, Err(NotFound))
      else Reply(s.(ingredients := Delete(s.ingredients, id), recipes := UnlinkIngredient(s.recipes, id)), Ok(()))
  }
}
